=== FILE: README.md ===
# Avesham ticket booking: a Dafny model

Avesham sells day passes and season passes for an event. A buyer picks a tier and a quantity on a booking page and pays through a payment gateway. The server checks the gateway's signature, issues a serial number such as `DP-0001` or `SP-0042`, and stores the booking. An administrator logs in with a fixed pair of credentials. The admin dashboard then shows the bookings newest first, together with revenue and ticket totals. Prices live in one `Pricing` document, with defaults of 199 and 699 rupees.

This project models that core in Dafny and proves properties of it:

- **The booking ledger.** The ledger is a `seq<Booking>` in insertion order. It has two unique keys: the payment id and the serial number.
- **Payments.** Confirmation is a pure function from the ledger and the request to `Failed | Error | Success(booking, ledger')`. Creating an order turns rupees into paise.
- **Admin side.**
  - the bearer-token gate;
  - the login;
  - the dashboard's folds over the ledger.
- **Prices.** The public price endpoint, and the client's `fetchPrices` with its defaults.
- **Browser logic.** The decision functions of the React booking page, the React admin dashboard and the static page:
  - validators;
  - totals;
  - the confirmation payload;
  - the search filter;
  - the spreadsheet rows;
  - the local booking list;
  - the FAQ accordion.

Foreign code is turned into parameters:

- HMAC-SHA256 is an uninterpreted `hmac(secret, message)`.
- `jwt.sign` and `jwt.verify` are the parameters `sign` and `tokenValid`.
- The payment gateway is a function from order options to an optional order.
- `Date.now()` is an integer `now`.
- The price read of `GET /prices` and the booking read of the admin `GET /bookings` may fail, and are modelled as `Option`s. In `verify-payment` the ledger read always answers, and the insert fails only on validation or a duplicate key.
- JavaScript's `parseInt`, `String(n)`, `padStart`, `trim`, `toLowerCase`, `split` and `includes` are modelled in `jstext.dfy` and `jsnumber.dfy`. `NaN`, `null` and `undefined` are `None`.

Central results:

- **Serial round trip.** A formatted serial reads back as the number it was formatted from (`Serial.SerialRoundTrip`).
- **Issued ledgers.** On a ledger whose serials were issued tier by tier, every correctly signed, complete request is booked under its tier's count plus one. The ledger stays issued, with both keys unique (`PaymentRoutes.IssuedLedgerAcceptsBooking`, `PaymentRoutes.RunKeepsInvariants`).
- **Dashboard totals.** The dashboard reports the ledger's totals whatever order the sort returns (`AdminRoutes.DashboardReportsLedger`).

Behaviours of the code worth knowing:

- The admin `GET /bookings` answer carries no `prices` object. The dashboard's price form therefore keeps its initial default prices and never shows the stored ones (`AdminDashboard.OpenedDashboardShowsDefaultPrices`).
- Nothing on the server checks that a quantity or an amount is positive. The booking schema only requires the fields to be present.
- Three behaviours of the code as written are proved as lemmas:
  - A ticket type other than the two tiers takes the `DP` prefix but counts only its own bookings. Booked first, it takes `DP-0001`, and every later day-pass confirmation then collides on that serial and is answered with an error (`PaymentRoutes.ForeignTypeBlocksDayPass`).
  - A name made only of white space passes the booking page's check and is paid for. The schema trims it to nothing and refuses it, so the paid booking is not stored (`HomePage.BlankNameIsPaidButNotBooked`).
  - `handleSubmit` treats a quantity with no leading numeral the same way (`HomePage.UnparsableQuantityIsNotBooked`). The page's own quantity menu offers only the numerals 1 to 5, so this needs a form edited outside the page, unlike the blank name, which a `required` text input accepts.

## Model

| member | source | states |
|---|---|---|
| BookingModel.Validate | backend/models/Booking.js:3-50 | a draft is accepted exactly when every required field is present and non-empty after the setters; the stored name is trimmed, the email trimmed and lower-cased, the other fields copied, and a missing timestamp becomes the current time |
| BookingModel.NormalisedEmailIsFixed | backend/models/Booking.js:10-15 | the stored email is a fixed point of the trim and lowercase setters |
| BookingModel.AppendKeepsInvariant | backend/models/Booking.js:32-42 | appending a stored booking with an unused payment id and serial keeps both keys unique |
| BookingModel.Create | backend/models/Booking.js:32-42 | an insert succeeds exactly when the draft is complete and neither key is taken; on success it is the validated booking and the grown ledger keeps both keys unique; a taken payment id is reported as a duplicate `paymentId` |
| BookingModel.CountAppend | backend/routes/paymentRoutes.js:11 | appending a booking raises the count of its own type by one and no other count |
| BookingModel.CountBeforeIsSmaller | backend/routes/paymentRoutes.js:11 | a booking of a type comes after fewer bookings of that type than the ledger holds |
| BookingModel.CountUpToLast | backend/routes/paymentRoutes.js:11 | when nothing after position i has the type, the count of the type is the count before i plus one |
| Serial.Prefix | backend/routes/paymentRoutes.js:10 | the tier prefix; its properties are stated by `Serial.PrefixOfType` |
| Serial.FormatSerial | backend/routes/paymentRoutes.js:18 | the serial text; read back by `Serial.SerialRoundTrip`, injective by `Serial.FormatSerialInjective`, padded as `Serial.PaddedNumeral` states |
| Serial.SerialNumberOf | backend/routes/paymentRoutes.js:15 | the number read out of a serial; inverse of formatting by `Serial.SerialRoundTrip`, `NaN` for a dashless serial by `Serial.NaNSerial` |
| Serial.NextNumber | backend/routes/paymentRoutes.js:13-16 | the next number; 1 with no earlier booking (`Serial.FirstSerialOfType`), the latest number plus one otherwise (`Serial.NextAfterLatest`, `Serial.NextOfReadable`) |
| Serial.GenerateSerial | backend/routes/paymentRoutes.js:9-19 | `generateSerial`; its properties are stated by `Serial.FirstSerialOfType`, `Serial.NextAfterLatest`, `Serial.IssuedNextSerial` and `Serial.IssuedSerialIsFresh` |
| Serial.PrefixOfType | backend/routes/paymentRoutes.js:10 | the prefix is `SP` exactly for season passes and `DP` for every other type, and neither contains a dash |
| Serial.LatestOfType | backend/routes/paymentRoutes.js:11 | the lookup finds a booking exactly when one of the type exists; it has the greatest timestamp of its type and every later insert of the type is stamped strictly earlier |
| Serial.SerialRoundTrip | backend/routes/paymentRoutes.js:15-18 | splitting a formatted serial at the dash and parsing the second field gives back the number, and the first field is the prefix |
| Serial.FormatSerialInjective | backend/routes/paymentRoutes.js:18 | two serials formatted from dash-free prefixes and non-negative numbers are equal only when prefix and number are |
| Serial.PaddedNumeral | backend/routes/paymentRoutes.js:18 | the padded number is zeros followed by the whole numeral, never truncated, with no dash |
| Serial.PaddedReadsBack | backend/routes/paymentRoutes.js:15-18 | the zero-padded numeral of n parses back as n |
| Serial.FirstSerialOfType | backend/routes/paymentRoutes.js:13-18 | with no earlier booking of the type the serial is `SP-0001` for season passes and `DP-0001` otherwise |
| Serial.NextAfterLatest | backend/routes/paymentRoutes.js:11-18 | after a latest serial formatted from n the next number is n + 1 and the serial is formatted from it |
| Serial.NextOfReadable | backend/routes/paymentRoutes.js:14-16 | a latest serial whose number reads back as n gives next number n + 1 |
| Serial.NaNSerial | backend/routes/paymentRoutes.js:14-18 | a latest serial without a dash reads as `NaN`, and the next serial is the prefix followed by `-0NaN` |
| Serial.IssuedNextSerial | backend/routes/paymentRoutes.js:9-19 | on an issued ledger the next serial of a type is its prefix with the type's count plus one |
| Serial.LatestIsLastOfType | backend/routes/paymentRoutes.js:11 | with timestamps in ledger order the latest booking of a type is the last one of that type |
| Serial.NextFromNumbered | backend/routes/paymentRoutes.js:11-18 | after a numbered latest booking the serial carries the next rank |
| Serial.NoneOfType | backend/routes/paymentRoutes.js:13 | a ledger without bookings of a type counts none of it |
| Serial.DistinctSerials | backend/routes/paymentRoutes.js:18 | different prefix-number pairs give different serials |
| Serial.IssuedSerialIsFresh | backend/routes/paymentRoutes.js:9-19 | on an issued ledger the next serial of a tier is held by no booking |
| Serial.NextNumberIsFresh | backend/routes/paymentRoutes.js:9-19 | the tier's count plus one, formatted, is held by no booking of an issued ledger |
| Serial.NumberedSerialDiffers | backend/routes/paymentRoutes.js:18 | a numbered booking's serial differs from the next serial of a tier whose next rank is above its own |
| Serial.RankedSerialDiffers | backend/routes/paymentRoutes.js:10-18 | serials of the two tiers differ unless tier and rank agree |
| Serial.IssuedAppend | backend/routes/paymentRoutes.js:55-66 | appending the generated serial of a tier, stamped no earlier than the ledger, keeps the ledger issued |
| Serial.AppendNextNumber | backend/routes/paymentRoutes.js:55-66 | appending a tier booking numbered with its count plus one, in time order, keeps the ledger issued |
| Serial.AppendKeepsNumbering | backend/routes/paymentRoutes.js:55-66 | appending the next-numbered booking keeps every position numbered and of a tier |
| Serial.NumberedAfterAppend | backend/routes/paymentRoutes.js:55-66 | each position, old or new, is numbered after appending the next-numbered booking |
| Serial.AppendKeepsOrder | backend/models/Booking.js:43-46 | appending a booking stamped no earlier than the ledger keeps timestamps in ledger order |
| Serial.NumberedInPrefix | backend/routes/paymentRoutes.js:11-18 | a position's numbering depends only on the bookings up to it |
| Serial.NumberedBehind | backend/routes/paymentRoutes.js:11-18 | a booking numbered from the bookings before it is numbered wherever it follows exactly those |
| PaymentRoutes.SignedMessage | backend/routes/paymentRoutes.js:45-48 | the signed text `order_id\|payment_id`; the signature test built on it is characterised by `PaymentRoutes.VerifyPayment` and `PaymentController.AgreesWithRouter` |
| PaymentRoutes.VerifyPayment | backend/routes/paymentRoutes.js:41-73 | the answer is 400 failed exactly when the signature differs from the HMAC of `order_id\|payment_id`; a success grows the ledger by exactly the booking and keeps both keys unique |
| PaymentRoutes.SuccessIff | backend/routes/paymentRoutes.js:41-73 | a booking is created exactly when the signature matches, the request is complete, and neither the payment id nor the generated serial is taken |
| PaymentRoutes.SuccessRecordsRequest | backend/routes/paymentRoutes.js:55-66 | the booking holds the request's payment id, type, normalised contact fields, quantity and amount, the generated serial and the current time |
| PaymentRoutes.BookedAmounts | backend/routes/paymentRoutes.js:57-66 | a booked request's quantity, amount and type are those of its booking |
| PaymentRoutes.RetryIsRejected | backend/routes/paymentRoutes.js:57-72 | a payment id already in the ledger is never booked again |
| PaymentRoutes.ReplayCreatesOneBooking | backend/routes/paymentRoutes.js:57-72 | replaying a booked confirmation is answered with an error, so one booking exists for it |
| PaymentRoutes.AcceptedRequest | backend/routes/paymentRoutes.js:55-68 | a signed, complete request with unused keys is booked under the generated serial, stamped now |
| PaymentRoutes.IssuedLedgerAcceptsBooking | backend/routes/paymentRoutes.js:41-73 | on an issued ledger with unique keys, a signed complete tier request with a fresh payment id is booked as its tier's count plus one, and the grown ledger stays issued with unique keys |
| PaymentRoutes.IssuedNext | backend/routes/paymentRoutes.js:9-19 | on an issued ledger the next serial of a tier is its count plus one, is unused, and keeps the ledger issued when appended in time order |
| PaymentRoutes.StepKeepsInvariant | backend/routes/paymentRoutes.js:41-73 | handling one request keeps both keys unique |
| PaymentRoutes.StepKeepsIssued | backend/routes/paymentRoutes.js:41-73 | handling one tier request in time order keeps the ledger issued |
| PaymentRoutes.BookedTierAndTime | backend/routes/paymentRoutes.js:55-66 | a booked request's booking has its tier, the current time and the generated serial |
| PaymentRoutes.RunKeepsInvariants | backend/routes/paymentRoutes.js:41-73 | any sequence of requests keeps both keys unique, and tier requests in time order keep the ledger issued |
| PaymentRoutes.FirstBooking | backend/routes/paymentRoutes.js:13-18 | on an empty ledger a signed complete request is booked as `SP-0001` for a season pass and `DP-0001` otherwise |
| PaymentRoutes.TakenFirstSerialBlocksTier | backend/routes/paymentRoutes.js:55-72 | a type whose first serial is held by another type is refused every time |
| PaymentRoutes.ForeignTypeBlocksDayPass | backend/routes/paymentRoutes.js:10-18 | a foreign type booked first takes `DP-0001`, after which every signed day-pass request is answered with an error |
| PaymentRoutes.RouteOrderOptions | backend/routes/paymentRoutes.js:25-30 | the gateway amount is the rupee amount times 100, in INR |
| PaymentRoutes.CreateOrder | backend/routes/paymentRoutes.js:22-38 | the gateway's order is passed on exactly when the gateway returns one; otherwise 500 with `Order creation failed` |
| PaymentController.OrderOptions | backend/controllers/paymentController.js:8-12 | the amount is rupees times 100, in INR, with automatic capture |
| PaymentController.CreateOrder | backend/controllers/paymentController.js:4-18 | the gateway's order is passed on when there is one, otherwise 500 with `Order creation failed` |
| PaymentController.VerifyPayment | backend/controllers/paymentController.js:20-33 | success exactly when the signature equals the HMAC of `order\|payment`; nothing is stored |
| PaymentController.AgreesWithRouter | backend/controllers/paymentController.js:23-32 | for the same order id, payment id and signature the controller confirms exactly when the router passes its signature check, and both answer 400 on the same requests |
| AdminRoutes.VerifyAdmin | backend/routes/adminRoutes.js:8-23 | a missing or empty header is refused with `No token provided`; a non-empty header is refused with `Token missing` exactly when its second space-separated word is absent or empty; the gate opens exactly when that word is non-empty and verifies; every refusal carries one of the three messages |
| AdminRoutes.BearerHeaderPasses | backend/routes/adminRoutes.js:13-22 | `scheme token` opens the gate exactly when the token verifies |
| AdminRoutes.SpacelessHeaderLacksToken | backend/routes/adminRoutes.js:13-15 | a non-empty header without a space is refused with `Token missing` |
| AdminRoutes.ProceedHasBearerShape | backend/routes/adminRoutes.js:13-19 | every header the gate lets through is a scheme, a space and a valid token, optionally followed by more words |
| AdminRoutes.BearerShapeProceeds | backend/routes/adminRoutes.js:13-19 | every scheme-space-valid-token header opens the gate, whatever further words follow the token |
| AdminRoutes.DoubledSpaceLacksToken | backend/routes/adminRoutes.js:13-15 | two spaces after the scheme leave the second word empty, so the header is refused with `Token missing` |
| AdminRoutes.NewestFirst | backend/routes/adminRoutes.js:28 | the sort keeps the length; a newest-first permutation by `AdminRoutes.NewestFirstSorts`, sum-preserving by `AdminRoutes.NewestFirstSum` |
| AdminRoutes.Sum | backend/routes/adminRoutes.js:30-31 | the `reduce` sum; additive over concatenation by `AdminRoutes.SumAppend` |
| AdminRoutes.OfType | backend/routes/adminRoutes.js:33-39 | the type filter; distributes over concatenation by `AdminRoutes.OfTypeAppend` |
| AdminRoutes.StatsOf | backend/routes/adminRoutes.js:30-47 | the dashboard totals; partitioned by `AdminRoutes.TierRevenuesPartition`, raised per booking by `AdminRoutes.AppendRaisesStats`, order-independent by `AdminRoutes.DashboardReportsLedger` |
| AdminRoutes.InsertAddsOne | backend/routes/adminRoutes.js:28 | insertion adds exactly the one booking |
| AdminRoutes.InsertKeepsOrder | backend/routes/adminRoutes.js:28 | insertion keeps a newest-first list newest first |
| AdminRoutes.NewestFirstSorts | backend/routes/adminRoutes.js:28 | the sort returns the same bookings with timestamps never increasing |
| AdminRoutes.AdminBookings | backend/routes/adminRoutes.js:26-55 | 403 with the gate's message exactly when the gate refuses; 500 exactly when it opens and the read fails; otherwise the stored bookings newest first, with their count |
| AdminRoutes.SumAppend | backend/routes/adminRoutes.js:30-31 | a sum over two lists is the sum of their sums |
| AdminRoutes.OfTypeAppend | backend/routes/adminRoutes.js:33-39 | the type filter distributes over concatenation |
| AdminRoutes.SumOfTypeStep | backend/routes/adminRoutes.js:30-39 | the first booking adds its value to the sum, and to a type's sum only when its type matches |
| AdminRoutes.InsertSums | backend/routes/adminRoutes.js:28-39 | inserting a booking adds its share to every sum, overall and per type |
| AdminRoutes.NewestFirstSum | backend/routes/adminRoutes.js:28-31 | sorting changes no sum |
| AdminRoutes.NewestFirstTypeSum | backend/routes/adminRoutes.js:28-39 | sorting changes no per-type sum |
| AdminRoutes.DashboardReportsLedger | backend/routes/adminRoutes.js:26-49 | past the gate, the dashboard's totals are those of the ledger in insertion order |
| AdminRoutes.TierRevenuesPartition | backend/routes/adminRoutes.js:30-39 | when every booking is a day or season pass the two tier revenues add up to the total revenue |
| AdminRoutes.AppendRaisesStats | backend/routes/adminRoutes.js:30-47 | one more booking raises revenue by its amount, tickets by its quantity, the count by one, and only its own tier's revenue |
| AdminRoutes.ConfirmedPaymentShowsOnDashboard | backend/routes/adminRoutes.js:30-47 | a confirmed payment adds its amount, its quantity and one booking to the totals |
| AdminAuth.Login | backend/routes/adminAuth.js:6-19 | success exactly for `avesham` / `avesham1234`, with a token signed over the admin role and a two-hour lifetime; anything else is 401 `Invalid credentials` |
| AdminAuth.IssuedTokenOpensGate | backend/routes/adminAuth.js:14-15 | the token a login returns, sent as `Bearer <token>`, opens the admin gate when the verifier accepts it |
| PricingModel.FieldValue | backend/models/Pricing.js:3-6 | an absent field takes its default, a supplied one its value, and an explicit null leaves it missing |
| PricingModel.NewPricing | backend/models/Pricing.js:3-6 | a document is created exactly when neither field is null; the first null field is named in the error; the prices are the field values |
| PricingModel.NewPricingDefaultsAndKeeps | backend/models/Pricing.js:4-5 | an empty document is 199 and 699, and a document given both prices keeps them |
| PublicRoutes.OrFallback | backend/routes/publicRoutes.js:16-17 | a non-zero price is kept and zero becomes the fallback |
| PublicRoutes.GetPrices | backend/routes/publicRoutes.js:6-25 | the status is always 200 and no price is zero; without a record or on a failed read the answer is the defaults; a record is served field by field with zero replaced |
| PublicRoutes.ServesStoredPrices | backend/routes/publicRoutes.js:16-19 | a stored pricing is served unchanged exactly when neither price is zero, and serving what was served changes nothing |
| PublicRoutes.FieldsAreIndependent | backend/routes/publicRoutes.js:16-17 | each served price depends only on its own stored field |
| PublicRoutes.DefaultDocumentServesDefaults | backend/routes/publicRoutes.js:8-13 | a document created with no prices is served like no document at all |
| PriceClient.FetchPrices | frontend/src/utils/api.js:23-36 | the server's pair when the response is ok and both prices are numbers, the defaults otherwise |
| PriceClient.ClientSeesServedPrices | frontend/src/utils/api.js:23-36 | the client receives exactly the pair the server serves, never a zero price |
| PriceClient.FallbackMatchesServerDefault | frontend/src/utils/api.js:32-35 | a failed or malformed fetch falls back to what the server serves with nothing stored |
| HomePage.TierPrice | frontend/src/pages/Home.jsx:73-80 | a ticket type has a price exactly when it is one of the two tiers |
| HomePage.SyncPrice | frontend/src/pages/Home.jsx:54-60 | after the effect the shown price is the selected tier's price; nothing else changes, and a page already in sync is untouched |
| HomePage.SelectTicket | frontend/src/pages/Home.jsx:73-80 | selecting sets the ticket and shows its tier's price; an unknown type keeps the old price |
| HomePage.LoadPrices | frontend/src/pages/Home.jsx:62-65 | a load replaces the prices and re-syncs the shown price, keeping selection and form |
| HomePage.TotalAmount | frontend/src/pages/Home.jsx:86 | the shown and charged total; price times numeral by `HomePage.QuantityChoiceTotals`, booked as charged by `HomePage.ChargedAmountIsBooked` |
| HomePage.QuantityChoiceTotals | frontend/src/pages/Home.jsx:86 | for a numeral quantity the total is the price times that number |
| HomePage.CheckSubmit | frontend/src/pages/Home.jsx:91-104 | checkout proceeds exactly when a ticket is selected, all four fields are non-empty and the phone is ten digits; a missing ticket is reported first, then missing fields exactly when a ticket is selected and some field is empty, and only then a bad phone |
| HomePage.Payload | frontend/src/pages/Home.jsx:117-127 | the confirmation carries the same total the order was created for, the parsed quantity and the selected ticket |
| HomePage.OnVerified | frontend/src/pages/Home.jsx:129-141 | a booked confirmation clears the form and the selection; anything else leaves the page unchanged |
| HomePage.ChargedAmountIsBooked | frontend/src/pages/Home.jsx:86-127 | the booked total is the total charged, the gateway amount is one hundred times it, and the booking records the parsed quantity and the selected tier |
| HomePage.BookedTotalFollowsPrice | frontend/src/pages/Home.jsx:54-86 | the booked total is the shown price times the booked quantity, and in sync it is the tier's loaded price times the quantity |
| HomePage.BlankNameIsPaidButNotBooked | frontend/src/pages/Home.jsx:96-127 | a white-space name passes the check and is paid, but its confirmation is answered with an error |
| HomePage.UnparsableQuantityIsNotBooked | frontend/src/pages/Home.jsx:96-127 | a quantity with no leading numeral passes the check, reaches the server as null and is refused |
| HomePage.AcceptedFormIsComplete | frontend/src/pages/Home.jsx:96-127 | an accepted form with a non-blank name and email and a numeral quantity yields a complete request |
| HomePage.PriceStaysInSync | frontend/src/pages/Home.jsx:54-80 | after any sequence of page events the shown price is the selected tier's latest price |
| HomePage.InitialPageInSync | frontend/src/pages/Home.jsx:9-19 | the page opens in sync, with total zero and no ticket selected |
| HomePage.ToggleFaq | frontend/src/pages/Home.jsx:167-169 | clicking the open question closes it; clicking any other opens that one |
| HomePage.ToggleFaqTwice | frontend/src/pages/Home.jsx:167-169 | two clicks on a question restore the accordion when that question or none was open |
| HomePage.TicketName | frontend/src/pages/Home.jsx:171 | `Day Pass` exactly for day passes, `Season Ticket` exactly for season passes, empty otherwise |
| AdminDashboard.Logout | frontend/src/pages/AdminDashboard.jsx:231-235 | the token is removed and nothing else changes |
| AdminDashboard.OrElse | frontend/src/pages/AdminDashboard.jsx:48-60 | a missing or zero number becomes the fallback; any other number is kept |
| AdminDashboard.LoadAdmin | frontend/src/pages/AdminDashboard.jsx:31-67 | 403 logs out; a success replaces all four totals (missing or zero ones as zero) and both booking lists, and replaces the prices only when the answer carries them, a missing or zero price becoming 199 or 699; an unreachable server, any other failing status or a non-success body leaves the view unchanged |
| AdminDashboard.LoadedPricesNeverZero | frontend/src/pages/AdminDashboard.jsx:56-61 | a load never introduces a zero price |
| AdminDashboard.DashboardMirrorsServer | frontend/src/pages/AdminDashboard.jsx:31-67 | against the admin router the dashboard shows the ledger's totals and its bookings newest first, keeps its prices, logs out on 403 and changes nothing on 500 |
| AdminDashboard.OpenedDashboardShowsDefaultPrices | frontend/src/pages/AdminDashboard.jsx:56-61 | a freshly opened dashboard shows the default prices whatever is stored |
| AdminDashboard.CheckPrices | frontend/src/pages/AdminDashboard.jsx:79-85 | a price update is sent exactly when both inputs parse to positive numbers, and it sends those numbers |
| AdminDashboard.TypedPricesAreServed | frontend/src/pages/AdminDashboard.jsx:79-85 | typed positive numerals are sent as those prices, and once stored they are served back unchanged |
| AdminDashboard.NonPositiveParseRejected | frontend/src/pages/AdminDashboard.jsx:82-85 | a price that parses to zero or less is refused in either input |
| AdminDashboard.NonPositivePricesRejected | frontend/src/pages/AdminDashboard.jsx:82-85 | zero and negative numerals are refused in either input |
| AdminDashboard.BlankPriceRejected | frontend/src/pages/AdminDashboard.jsx:79-85 | an empty input is refused |
| AdminDashboard.AfterPriceUpdate | frontend/src/pages/AdminDashboard.jsx:138-160 | 403 logs out; a successful update reloads the dashboard; an unparseable body, a 400, a 404, any other failing status or a non-success result changes nothing |
| AdminDashboard.Matches | frontend/src/pages/AdminDashboard.jsx:186-194 | one booking against the lower-cased query; shown exactly when it matches by `AdminDashboard.FilterShowsExactlyMatches` |
| AdminDashboard.Keep | frontend/src/pages/AdminDashboard.jsx:185-195 | keeps at most the given bookings; exactly the passing ones by `AdminDashboard.KeepExactly`, in order by `AdminDashboard.KeepAppend` |
| AdminDashboard.KeepExactly | frontend/src/pages/AdminDashboard.jsx:185-196 | the kept bookings are exactly the listed ones that pass the test |
| AdminDashboard.KeepAppend | frontend/src/pages/AdminDashboard.jsx:185-196 | keeping distributes over concatenation, so order is preserved |
| AdminDashboard.KeepTwice | frontend/src/pages/AdminDashboard.jsx:185-196 | keeping twice is keeping once |
| AdminDashboard.FilterBookings | frontend/src/pages/AdminDashboard.jsx:178-197 | a blank query shows every loaded booking, and no query shows more |
| AdminDashboard.FilterShowsExactlyMatches | frontend/src/pages/AdminDashboard.jsx:185-196 | for a non-blank query a booking is shown exactly when it is loaded and matches; the filter keeps the loaded order and is idempotent |
| AdminDashboard.FilterIgnoresQueryCase | frontend/src/pages/AdminDashboard.jsx:186 | lower-casing the query first changes nothing |
| AdminDashboard.SerialSearchFindsBooking | frontend/src/pages/AdminDashboard.jsx:188 | searching for a loaded booking's serial finds it |
| AdminDashboard.SerialMatchesItself | frontend/src/pages/AdminDashboard.jsx:188 | a booking matches its own lower-cased serial |
| AdminDashboard.OrDash | frontend/src/pages/AdminDashboard.jsx:207-215 | an empty text becomes `-` and any other text is kept |
| AdminDashboard.ExcelRows | frontend/src/pages/AdminDashboard.jsx:205-216 | one row per shown booking, in order |
| AdminDashboard.ExcelRowsShowBookings | frontend/src/pages/AdminDashboard.jsx:205-216 | rows are numbered from 1 without gaps, no serial or payment cell is empty, and a stored booking's fields appear verbatim |
| StaticSite.SummaryTotal | public/js/main.js:32-43 | a NaN price shows a zero total |
| StaticSite.SummaryTotalIsProduct | public/js/main.js:33-42 | for a numeric price the total is the price times the quantity read as `parseInt(q) \|\| 0` |
| StaticSite.SummaryTotalOfNumeral | public/js/main.js:33-42 | for a numeral quantity n the total is the price times n |
| StaticSite.Times | public/js/main.js:74-79 | a product is NaN exactly when its factor is, and otherwise the product |
| StaticSite.SubmitBooking | public/js/main.js:46-80 | checkout proceeds exactly when a type is selected, the fields are non-empty, the quantity parses to non-zero and the phone is ten digits; a missing type is reported first, then missing fields exactly when a type is selected and a field is empty or the quantity is `NaN` or zero, and only then a bad phone; it charges price times quantity and one hundred times that in paise |
| StaticSite.CheckoutChargesSummary | public/js/main.js:32-79 | the checkout total is the summary total, and the paise amount is what the server's order creation computes for it |
| StaticSite.SaveBooking | public/js/main.js:131-135 | the stored list, with a missing one read as empty, keeps its entries and gains the new one at the end |
| StaticSite.SaveAllAppends | public/js/main.js:131-135 | after any number of saves the list is the old list followed by the new entries in order |
| StaticSite.VerifyAdminLogin | public/js/main.js:155-171 | the panel's credential test; its accepted and refused pairs are stated by `StaticSite.AdminCredentialsDisjoint` |
| StaticSite.AdminCredentialsDisjoint | public/js/main.js:155-171 | the static page's panel opens for `ADMIN` / `12345` but refuses the server's admin pair, and the server refuses the static page's pair |
| StaticSite.ToggleFaq | public/js/main.js:292-305 | at most one item is open afterwards; the clicked item flips and every other one is closed |
| StaticSite.Flags | public/js/main.js:292-305 | the picture of an open index has one flag per item and at most one open |
| StaticSite.ToggleFaqAgreesWithHomePage | public/js/main.js:292-305 | toggling the flags matches the booking page's toggling of the open index |
| StaticSite.FlagsCoverAccordion | public/js/main.js:292-305 | every row of flags with at most one open item is the picture of some open index |
| JsText.Trim | backend/models/Booking.js:5-9 | `trim`; empty exactly for white space by `JsText.TrimIsEmptyIffBlank`, idempotent by `JsText.TrimIdempotent` |
| JsText.ToLower | backend/models/Booking.js:10-15 | `toLowerCase` keeps the length and maps each character; idempotent by `JsText.ToLowerIdempotent` |
| JsText.Includes | frontend/src/pages/AdminDashboard.jsx:188-193 | `includes`; holds exactly when the needle occurs somewhere, by `JsText.IncludesIffOccurs` |
| JsText.Split | backend/routes/adminRoutes.js:13 | `split` gives at least one piece, none containing the separator; inverse of joining by `JsText.JoinSplit` and `JsText.SplitJoin` |
| JsText.Field | backend/routes/adminRoutes.js:13 | `split(sep)[k]`; read back by `Serial.FieldsAroundDash` and `AdminRoutes.BearerHeaderPasses` |
| JsText.PadStart | backend/routes/paymentRoutes.js:18 | `padStart`; its shape is stated by `JsText.PadStartShape` |
| JsText.TrimIsEmptyIffBlank | backend/models/Booking.js:5-9 | a value trims to nothing exactly when it is all white space, which is what the trim-then-required check tests |
| JsText.TrimIdempotent | backend/models/Booking.js:5-9 | trimming a trimmed value changes nothing |
| JsText.ToLowerIdempotent | backend/models/Booking.js:10-15 | lower-casing leaves no upper-case letter and is idempotent |
| JsText.LowerCommutesWithTrim | backend/models/Booking.js:10-15 | lower-casing and trimming commute |
| JsText.IncludesIffOccurs | frontend/src/pages/AdminDashboard.jsx:188-193 | `includes` holds exactly when the needle occurs at some position |
| JsText.JoinSplit | backend/routes/paymentRoutes.js:15 | joining the pieces of a split restores the string |
| JsText.SplitJoin | backend/routes/paymentRoutes.js:15 | splitting undoes joining separator-free pieces |
| JsText.PadStartShape | backend/routes/paymentRoutes.js:18 | padding keeps the whole string at the end and fills only in front, up to the width |
| JsNumber.ParseInt | backend/routes/paymentRoutes.js:15 | `parseInt`; inverse of `String(n)` by `JsNumber.ParseNumberText`, of padding by `JsNumber.ParsePaddedDecimal`, `NaN` on white space by `JsNumber.ParseBlankIsNaN` |
| JsNumber.ParseNumberText | backend/routes/paymentRoutes.js:15-18 | `parseInt(String(i))` is i for every integer i |
| JsNumber.ParsePaddedDecimal | backend/routes/paymentRoutes.js:15-18 | a zero-padded numeral parses back as its number |
| JsNumber.ParseBlankIsNaN | frontend/src/pages/Home.jsx:86 | white space alone parses to NaN |
| JsNumber.IntOrZeroOfNumeral | frontend/src/pages/Home.jsx:86 | `parseInt(q) \|\| 0` is 0 for the empty input and n for a numeral |

## Left out

- Character case: `toLowerCase` is modelled on ASCII letters only. Other Unicode case mappings are not modelled. White space is JavaScript's full set of WhiteSpace and LineTerminator code points.
- Numbers: amounts and quantities are unbounded integers. Floating point, fractional rupees and the 2^53 precision limit are not modelled.
- `parseInt` of the model reads decimal and `0x` hexadecimal numerals after optional white space and a sign. `JsNumber.DigitsValue` gives a non-digit the value zero, a case `parseInt` never reaches, because it reads only leading digits.
- Cryptography: HMAC-SHA256 and `jwt.sign`/`jwt.verify` are uninterpreted parameters. Hashing, token encoding and expiry checks are not modelled.
- Database: MongoDB reads and writes are operations on an in-memory sequence. The order among bookings with equal timestamps is unspecified in MongoDB. `Serial.LatestOfType` picks the later insert, and `AdminRoutes.NewestFirst` picks an order of its own. Mongoose's casting of strings to numbers is not modelled: quantities and amounts arrive as numbers or missing.
- PaymentRoutes.VerifyPayment: the serial lookup (`Booking.findOne`, backend/routes/paymentRoutes.js:11) always answers, and the insert (`Booking.create`, line 57) fails only on validation or a duplicate key. A failing read or insert is not modelled; the code answers it with 500 `{status: "error"}` from its catch at lines 69-72. So `PaymentRoutes.SuccessIff` from right to left, and `PaymentRoutes.IssuedLedgerAcceptsBooking`, hold only when the database answers.
- Concurrency: requests are handled one after another. Two confirmations racing through `generateSerial` are not modelled.
- PDF tickets, QR codes and e-mail (backend/utils/generateTicketPDF.js, backend/utils/sendMail.js) are not part of this model.
- Server code for updating prices, verifying QR codes, ticket download and bulk deletion is not part of this model. Only the dashboard's side of the price update is modelled.
- Wiring and presentation are not modelled:
  - backend/server.js, which mounts only the payment router. The lemmas that join a client to the public or admin router (`PriceClient.ClientSeesServedPrices`, `AdminDashboard.DashboardMirrorsServer`, `AdminDashboard.TypedPricesAreServed`, `AdminAuth.IssuedTokenOpensGate`) assume those routers are mounted; under the server.js shown their paths would answer 404;
  - frontend/src/App.jsx and frontend/src/utils/razorpay.js;
  - QRScanner.jsx, Success.jsx, AdminLogin.jsx and public/js/admin.js;
  - alerts, the timer that reloads prices every thirty seconds, and navigation.
- frontend/src/utils/api.js `createOrder` and `verifyPayment` are plain POST wrappers. Their bodies are modelled as `PaymentRoutes.RouteOrderOptions`'s input and `HomePage.Payload`.
- The spreadsheet's date column and library, `toLocaleString`, and public/js/main.js's `displayBookings` and `downloadExcel` are rendering only and are not modelled.
- AdminDashboard.jsx `updatePrices`: the health check before the request and the distinct alerts for 400, 404 and HTML error bodies are not modelled. They change no state except the loading flag.

=== FILE: admin_auth.dfy ===
/** `POST /login` of the admin router: one fixed pair of credentials, and a
    signed token carrying the admin role for two hours. `jwt.sign` with the
    configured secret is the parameter `sign`. */
module AdminAuth {

  import opened Options
  import opened JsText
  import AdminRoutes

  const AdminUser := "avesham"
  const AdminPass := "avesham1234"

  /** The token's payload and lifetime: `{ role: "admin" }` expiring in `"2h"`. */
  datatype Claims = Claims(role: string, expiresInSeconds: nat)

  const AdminClaims := Claims("admin", 2 * 60 * 60)

  /** `{status: "success", token}` or 401 `{status: "failed", message}`. */
  datatype LoginResponse = LoggedIn(token: string) | LoginFailed(message: string)

  function StatusCode(r: LoginResponse): int {
    if r.LoggedIn? then 200 else 401
  }

  /** `POST /login`. */
  function Login(username: Option<string>, password: Option<string>, sign: Claims -> string): (r: LoginResponse)
    ensures r.LoggedIn? <==> username == Some(AdminUser) && password == Some(AdminPass)
    ensures r.LoggedIn? ==> r.token == sign(Claims("admin", 7200))
    ensures r.LoginFailed? ==> r == LoginFailed("Invalid credentials") && StatusCode(r) == 401
  {
    if username == Some(AdminUser) && password == Some(AdminPass) then LoggedIn(sign(AdminClaims))
    else LoginFailed("Invalid credentials")
  }

  /** The token a login hands out opens the admin gate when sent the way the
      dashboard sends it, `Bearer <token>`, provided the verifier accepts what
      the signer produced and the token is a single non-empty word, as a
      compact JSON Web Token is. */
  lemma IssuedTokenOpensGate(username: Option<string>, password: Option<string>,
                             sign: Claims -> string, tokenValid: string -> bool)
    requires Login(username, password, sign).LoggedIn?
    requires tokenValid(sign(AdminClaims))
    requires sign(AdminClaims) != "" && ' ' !in sign(AdminClaims)
    ensures AdminRoutes.VerifyAdmin(Some("Bearer " + Login(username, password, sign).token), tokenValid)
      == AdminRoutes.Proceed
  {
    var token := sign(AdminClaims);
    assert "Bearer " + token == "Bearer" + " " + token;
    assert ' ' !in "Bearer";
    AdminRoutes.BearerHeaderPasses("Bearer", token, tokenValid);
  }
}

=== FILE: admin_dashboard.dfy ===
/** The admin dashboard of the React client: loading the bookings and totals
    behind the admin gate, the price form's check, the search box, the
    spreadsheet export, and logging out when the server answers 403. */
module AdminDashboard {

  import opened Options
  import opened JsText
  import opened JsNumber
  import opened BookingModel
  import opened PricingModel
  import AdminRoutes
  import PublicRoutes

  /** The four totals the dashboard shows. */
  datatype ViewStats = ViewStats(totalRevenue: int, totalTickets: int, dayPassRevenue: int, seasonPassRevenue: int)

  /** The component's state: the stored token, the totals, every loaded
      booking and the ones the search shows, the price form, the search text. */
  datatype View = View(
    token: Option<string>,
    stats: ViewStats,
    allBookings: seq<Booking>,
    bookings: seq<Booking>,
    prices: Pricing,
    searchQuery: string)

  /** The dashboard as it opens: zero totals, no bookings, the default prices. */
  function InitialView(token: Option<string>): View {
    View(token, ViewStats(0, 0, 0, 0), [], [], DefaultPricing, "")
  }

  /** `logout`: the token is removed and the admin is sent to the login page. */
  function Logout(view: View): (r: View)
    ensures r.token.None?
    ensures r.(token := view.token) == view
  {
    view.(token := None)
  }

  /** A `prices` object in a response; either price may be missing. */
  datatype PricesJson = PricesJson(dayPass: Option<int>, seasonPass: Option<int>)

  /** The parsed body of `GET /bookings`; any field may be missing. */
  datatype DashboardJson = DashboardJson(
    status: Option<string>,
    totalRevenue: Option<int>,
    totalTickets: Option<int>,
    dayPassRevenue: Option<int>,
    seasonPassRevenue: Option<int>,
    bookings: Option<seq<Booking>>,
    prices: Option<PricesJson>)

  /** What `fetch` produced: it threw, or a response with a status and body. */
  datatype Reply = Unreachable | Reply(status: int, body: DashboardJson)

  predicate IsOk(status: int) {
    200 <= status < 300
  }

  /** JavaScript's `n || fallback` on a number that may be missing: a missing
      value and zero both give the fallback. */
  function OrElse(v: Option<int>, fallback: int): (r: int)
    ensures v.Some? && v.value != 0 ==> r == v.value
    ensures v.None? || v.value == 0 ==> r == fallback
  {
    if v.Some? && v.value != 0 then v.value else fallback
  }

  /** `loadAdmin`: 403 logs out; any other failure leaves the page as it was;
      a successful answer replaces the totals and both booking lists, and the
      prices only when the answer carries a `prices` object. */
  function LoadAdmin(view: View, reply: Reply): (r: View)
    ensures reply.Reply? && reply.status == 403 ==> r == Logout(view)
    ensures r.token == view.token || (reply.Reply? && reply.status == 403 && r.token.None?)
    ensures r.searchQuery == view.searchQuery
    ensures r.allBookings == r.bookings || (r.allBookings == view.allBookings && r.bookings == view.bookings)
    ensures reply.Reply? && reply.body.prices.None? ==> r.prices == view.prices
    ensures reply.Reply? && IsOk(reply.status) && reply.body.status == Some("success") ==>
      (&& r.allBookings == reply.body.bookings.GetOr([])
       && r.stats == ViewStats(OrElse(reply.body.totalRevenue, 0), OrElse(reply.body.totalTickets, 0),
                               OrElse(reply.body.dayPassRevenue, 0), OrElse(reply.body.seasonPassRevenue, 0)))
    ensures reply.Reply? && IsOk(reply.status) && reply.body.status == Some("success") && reply.body.prices.Some? ==>
      r.prices == Pricing(OrElse(reply.body.prices.value.dayPass, DefaultDayPass),
                          OrElse(reply.body.prices.value.seasonPass, DefaultSeasonPass))
    ensures reply.Unreachable?
         || (reply.status != 403 && !(IsOk(reply.status) && reply.body.status == Some("success")))
         ==> r == view
  {
    match reply
    case Unreachable => view
    case Reply(status, body) =>
      if !IsOk(status) then
        (if status == 403 then Logout(view) else view)
      else if body.status != Some("success") then view
      else
        var loaded := body.bookings.GetOr([]);
        var stats := ViewStats(OrElse(body.totalRevenue, 0), OrElse(body.totalTickets, 0),
                               OrElse(body.dayPassRevenue, 0), OrElse(body.seasonPassRevenue, 0));
        var prices :=
          match body.prices
          case None => view.prices
          case Some(p) => Pricing(OrElse(p.dayPass, DefaultDayPass), OrElse(p.seasonPass, DefaultSeasonPass));
        view.(stats := stats, allBookings := loaded, bookings := loaded, prices := prices)
  }

  /** No load ever shows a zero price when none was shown before: a
      missing or zero price in the answer falls back to its default. */
  lemma LoadedPricesNeverZero(view: View, reply: Reply)
    requires view.prices.dayPass != 0 && view.prices.seasonPass != 0
    ensures LoadAdmin(view, reply).prices.dayPass != 0 && LoadAdmin(view, reply).prices.seasonPass != 0
  {
  }

  /** How the admin router's answer reaches the client: 403 with a message,
      200 with the totals and bookings (and no `prices`), or 500. */
  function Transport(r: AdminRoutes.AdminResponse): Reply {
    match r
    case Forbidden(_) => Reply(403, DashboardJson(None, None, None, None, None, None, None))
    case Dashboard(stats, bookings) =>
      Reply(200, DashboardJson(Some("success"), Some(stats.totalRevenue), Some(stats.totalTickets),
                               Some(stats.dayPassRevenue), Some(stats.seasonPassRevenue), Some(bookings), None))
    case LoadFailed(_) => Reply(500, DashboardJson(Some("error"), None, None, None, None, None, None))
  }

  /** Against the admin router the dashboard shows exactly the ledger's
      totals and its bookings newest first; the price form keeps whatever it
      showed, because that answer carries no prices. A refused token logs the
      admin out and a failed read changes nothing. */
  lemma DashboardMirrorsServer(view: View, header: Option<string>, tokenValid: string -> bool,
                               stored: Option<seq<Booking>>)
    ensures var answer := AdminRoutes.AdminBookings(header, tokenValid, stored);
      var r := LoadAdmin(view, Transport(answer));
      && (answer.Dashboard? ==>
            && r.stats == ViewStats(answer.stats.totalRevenue, answer.stats.totalTickets,
                                    answer.stats.dayPassRevenue, answer.stats.seasonPassRevenue)
            && r.allBookings == answer.bookings && r.bookings == answer.bookings
            && r.prices == view.prices && r.token == view.token)
      && (answer.Forbidden? ==> r.token.None?)
      && (answer.LoadFailed? ==> r == view)
  {
  }

  /** So a freshly opened dashboard always shows the default prices, whatever
      the stored pricing is. */
  lemma OpenedDashboardShowsDefaultPrices(token: Option<string>, header: Option<string>,
                                          tokenValid: string -> bool, stored: Option<seq<Booking>>)
    ensures LoadAdmin(InitialView(token), Transport(AdminRoutes.AdminBookings(header, tokenValid, stored))).prices
         == DefaultPricing
  {
    DashboardMirrorsServer(InitialView(token), header, tokenValid, stored);
  }

  /** The price form's check in `updatePrices`: both inputs through
      `parseInt`, both numbers, both positive. */
  datatype PriceCheck = Rejected | Send(dayPass: int, seasonPass: int)

  function CheckPrices(dayInput: string, seasonInput: string): (r: PriceCheck)
    ensures r.Send? <==>
      && ParseInt(dayInput).Some? && ParseInt(dayInput).value > 0
      && ParseInt(seasonInput).Some? && ParseInt(seasonInput).value > 0
    ensures r.Send? ==> Some(r.dayPass) == ParseInt(dayInput) && Some(r.seasonPass) == ParseInt(seasonInput)
  {
    match (ParseInt(dayInput), ParseInt(seasonInput))
    case (Some(d), Some(s)) => if d <= 0 || s <= 0 then Rejected else Send(d, s)
    case _ => Rejected
  }

  /** Typing positive prices as numerals sends exactly those prices, and
      once stored they are served back to the booking page unchanged. */
  lemma TypedPricesAreServed(dayPass: nat, seasonPass: nat)
    requires dayPass > 0 && seasonPass > 0
    ensures CheckPrices(DecimalText(dayPass), DecimalText(seasonPass)) == Send(dayPass, seasonPass)
    ensures PublicRoutes.GetPrices(PublicRoutes.Record(Pricing(dayPass, seasonPass))).body == Pricing(dayPass, seasonPass)
  {
    ParsePaddedDecimal(0, dayPass);
    ParsePaddedDecimal(0, seasonPass);
    assert Repeat('0', 0) + DecimalText(dayPass) == DecimalText(dayPass);
    assert Repeat('0', 0) + DecimalText(seasonPass) == DecimalText(seasonPass);
    PublicRoutes.ServesStoredPrices(Pricing(dayPass, seasonPass), PublicRoutes.NoRecord);
  }

  /** A price that parses to zero or less makes the check refuse, whichever input holds it. */
  lemma NonPositiveParseRejected(price: string, other: string)
    requires ParseInt(price).Some? && ParseInt(price).value <= 0
    ensures CheckPrices(price, other) == Rejected && CheckPrices(other, price) == Rejected
  {
  }

  /** So zero and negative prices are refused, in either input. */
  lemma NonPositivePricesRejected(n: int, other: string)
    requires n <= 0
    ensures CheckPrices(NumberText(Some(n)), other) == Rejected
    ensures CheckPrices(other, NumberText(Some(n))) == Rejected
  {
    ParseNumberText(n);
    NonPositiveParseRejected(NumberText(Some(n)), other);
  }

  /** An empty input is refused. */
  lemma BlankPriceRejected(other: string)
    ensures CheckPrices("", other) == Rejected && CheckPrices(other, "") == Rejected
  {
    ParseBlankIsNaN("");
  }

  /** What the update request's answer does to the page: the body is not
      JSON, or a status with the body's `status` field. */
  datatype UpdateReply = NotJson | Answered(status: int, resultStatus: Option<string>)

  /** After `updatePrices` sent a request: 403 logs out, success reloads the
      dashboard (whose answer is `reload`), everything else only alerts. */
  function AfterPriceUpdate(view: View, reply: UpdateReply, reload: Reply): (r: View)
    ensures reply.Answered? && reply.status == 403 ==> r == Logout(view)
    ensures reply.Answered? && IsOk(reply.status) && reply.resultStatus == Some("success") ==> r == LoadAdmin(view, reload)
    ensures reply.NotJson? ==> r == view
    ensures reply.Answered? && reply.status != 403 && !(IsOk(reply.status) && reply.resultStatus == Some("success"))
      ==> r == view
  {
    match reply
    case NotJson => view
    case Answered(status, result) =>
      if !IsOk(status) then (if status == 403 then Logout(view) else view)
      else if result == Some("success") then LoadAdmin(view, reload)
      else view
  }

  /** One booking as the search sees it: a non-empty field whose lower-cased
      text contains the lower-cased query; the phone is compared as it is. */
  predicate Matches(b: Booking, q: string) {
    || (b.serialNumber != "" && Includes(ToLower(b.serialNumber), q))
    || (b.fullName != "" && Includes(ToLower(b.fullName), q))
    || (b.email != "" && Includes(ToLower(b.email), q))
    || (b.phone != "" && Includes(b.phone, q))
    || (b.ticketType != "" && Includes(ToLower(b.ticketType), q))
    || (b.paymentId != "" && Includes(ToLower(b.paymentId), q))
  }

  /** The search's test for one query, as a function of the booking. */
  function Matcher(q: string): Booking -> bool {
    b => Matches(b, q)
  }

  /** The bookings a test keeps, in their original order. */
  function Keep(all: seq<Booking>, keep: Booking -> bool): (r: seq<Booking>)
    ensures |r| <= |all|
  {
    if all == [] then []
    else (if keep(all[0]) then [all[0]] else []) + Keep(all[1..], keep)
  }

  lemma {:induction false} KeepExactly(all: seq<Booking>, keep: Booking -> bool)
    ensures forall b :: b in Keep(all, keep) <==> b in all && keep(b)
  {
    if all != [] {
      KeepExactly(all[1..], keep);
      assert all == [all[0]] + all[1..];
    }
  }

  /** Keeping distributes over concatenation, so the kept bookings stay in
      the order of the full list. */
  lemma {:induction false} KeepAppend(a: seq<Booking>, b: seq<Booking>, keep: Booking -> bool)
    ensures Keep(a + b, keep) == Keep(a, keep) + Keep(b, keep)
  {
    if a == [] {
      assert a + b == b;
    } else {
      var head := if keep(a[0]) then [a[0]] else [];
      assert (a + b)[0] == a[0];
      assert (a + b)[1..] == a[1..] + b;
      assert Keep(a + b, keep) == head + Keep(a[1..] + b, keep);
      KeepAppend(a[1..], b, keep);
      assert Keep(a, keep) == head + Keep(a[1..], keep);
      assert head + (Keep(a[1..], keep) + Keep(b, keep)) == (head + Keep(a[1..], keep)) + Keep(b, keep);
    }
  }

  lemma {:induction false} KeepTwice(all: seq<Booking>, keep: Booking -> bool)
    ensures Keep(Keep(all, keep), keep) == Keep(all, keep)
  {
    if all != [] {
      var head := if keep(all[0]) then [all[0]] else [];
      KeepAppend(head, Keep(all[1..], keep), keep);
      KeepTwice(all[1..], keep);
      if keep(all[0]) {
        assert Keep(head, keep) == [all[0]] + Keep([], keep);
      }
    }
  }

  /** `filterBookings`: a blank query shows every loaded booking, any other
      query the ones matching its lower-cased form. */
  function FilterBookings(all: seq<Booking>, query: string): (r: seq<Booking>)
    ensures Trim(query) == "" ==> r == all
    ensures |r| <= |all|
  {
    if Trim(query) == "" then all else Keep(all, Matcher(ToLower(query)))
  }

  /** For a query with content, a booking is shown exactly when it is loaded
      and matches; the filter keeps the loaded order and filtering the shown
      list again changes nothing. */
  lemma FilterShowsExactlyMatches(all: seq<Booking>, query: string, more: seq<Booking>)
    requires Trim(query) != ""
    ensures forall b :: b in FilterBookings(all, query) <==> b in all && Matches(b, ToLower(query))
    ensures FilterBookings(all + more, query) == FilterBookings(all, query) + FilterBookings(more, query)
    ensures FilterBookings(FilterBookings(all, query), query) == FilterBookings(all, query)
  {
    KeepExactly(all, Matcher(ToLower(query)));
    KeepAppend(all, more, Matcher(ToLower(query)));
    KeepTwice(all, Matcher(ToLower(query)));
  }

  /** The search ignores the case of the query. */
  lemma FilterIgnoresQueryCase(all: seq<Booking>, query: string)
    ensures FilterBookings(all, ToLower(query)) == FilterBookings(all, query)
  {
    LowerCommutesWithTrim(query);
    ToLowerIdempotent(query);
  }

  /** Searching for a booking's serial number, in any case, finds it. */
  lemma SerialSearchFindsBooking(all: seq<Booking>, b: Booking)
    requires b in all && Trim(b.serialNumber) != ""
    ensures b in FilterBookings(all, b.serialNumber)
  {
    assert b.serialNumber != "";
    var q := ToLower(b.serialNumber);
    SerialMatchesItself(b);
    assert Matcher(q)(b);
    KeepExactly(all, Matcher(q));
    assert FilterBookings(all, b.serialNumber) == Keep(all, Matcher(q));
  }

  lemma SerialMatchesItself(b: Booking)
    requires b.serialNumber != ""
    ensures Matches(b, ToLower(b.serialNumber))
  {
    var q := ToLower(b.serialNumber);
    assert StartsWith(q, q);
  }

  /** One spreadsheet row of the export. */
  datatype ExcelRow = ExcelRow(
    sno: int, serialNumber: string, fullName: string, email: string, phone: string,
    ticketType: string, quantity: int, totalAmount: int, paymentId: string)

  /** `text || '-'`. */
  function OrDash(s: string): (r: string)
    ensures r != ""
    ensures s != "" ==> r == s
  {
    if s == "" then "-" else s
  }

  function RowOf(index: nat, b: Booking): ExcelRow {
    ExcelRow(index + 1, OrDash(b.serialNumber), OrDash(b.fullName), OrDash(b.email), OrDash(b.phone),
             OrDash(b.ticketType), b.quantity, b.totalAmount, OrDash(b.paymentId))
  }

  /** The rows of the export of the shown bookings, numbered from one. */
  function ExcelRows(shown: seq<Booking>): (rows: seq<ExcelRow>)
    ensures |rows| == |shown|
    ensures forall i :: 0 <= i < |rows| ==> rows[i] == RowOf(i, shown[i])
  {
    seq(|shown|, i requires 0 <= i < |shown| => RowOf(i, shown[i]))
  }

  /** Rows are numbered 1 to n without gaps, no text cell is empty, and a
      stored booking's row shows its fields verbatim. */
  lemma ExcelRowsShowBookings(shown: seq<Booking>)
    ensures forall i :: 0 <= i < |shown| ==> ExcelRows(shown)[i].sno == i + 1
    ensures forall i :: 0 <= i < |shown| ==> ExcelRows(shown)[i].serialNumber != "" && ExcelRows(shown)[i].paymentId != ""
    ensures forall i :: 0 <= i < |shown| && Stored(shown[i]) ==>
      var row := ExcelRows(shown)[i];
      && row.serialNumber == shown[i].serialNumber && row.fullName == shown[i].fullName
      && row.email == shown[i].email && row.phone == shown[i].phone
      && row.ticketType == shown[i].ticketType && row.paymentId == shown[i].paymentId
      && row.quantity == shown[i].quantity && row.totalAmount == shown[i].totalAmount
  {
  }
}

=== FILE: admin_routes.dfy ===
/** The admin router: the `verifyAdmin` bearer-token gate and
    `GET /bookings`, which returns every booking newest first with the
    dashboard's revenue and ticket totals. `jwt.verify` is the parameter
    `tokenValid`; the database read is the parameter `stored`, `None` when
    it fails. */
module AdminRoutes {

  import opened Options
  import opened JsText
  import opened BookingModel
  import PaymentRoutes

  /** The gate's answer: 403 with a message, or on to the handler. */
  datatype GateResult = Denied(message: string) | Proceed

  /** `verifyAdmin`: the token is the second space-separated word of the
      `Authorization` header. */
  function VerifyAdmin(header: Option<string>, tokenValid: string -> bool): (r: GateResult)
    ensures header.None? || header.value == "" ==> r == Denied("No token provided")
    ensures r.Denied? ==> r.message in {"No token provided", "Token missing", "Invalid or expired token"}
    ensures r == Denied("Token missing") <==>
      (header.Some? && header.value != ""
       && (Field(header.value, ' ', 1).None? || Field(header.value, ' ', 1).value == ""))
    ensures r == Proceed <==>
      (header.Some? && Field(header.value, ' ', 1).Some?
       && Field(header.value, ' ', 1).value != "" && tokenValid(Field(header.value, ' ', 1).value))
  {
    if header.None? || header.value == "" then Denied("No token provided")
    else
      match Field(header.value, ' ', 1)
      case None => Denied("Token missing")
      case Some(token) =>
        if token == "" then Denied("Token missing")
        else if tokenValid(token) then Proceed
        else Denied("Invalid or expired token")
  }

  /** A header `<scheme> <token>`, such as `Bearer <token>`, is judged by its
      token alone. */
  lemma BearerHeaderPasses(scheme: string, token: string, tokenValid: string -> bool)
    requires ' ' !in scheme && ' ' !in token && token != ""
    ensures VerifyAdmin(Some(scheme + " " + token), tokenValid)
      == if tokenValid(token) then Proceed else Denied("Invalid or expired token")
  {
    var parts := [scheme, token];
    assert Join(parts[1..], ' ') == token;
    assert Join(parts, ' ') == scheme + " " + token;
    SplitJoin(parts, ' ');
  }

  /** A non-empty header without a space carries no token at all. */
  lemma SpacelessHeaderLacksToken(header: string, tokenValid: string -> bool)
    requires header != "" && ' ' !in header
    ensures VerifyAdmin(Some(header), tokenValid) == Denied("Token missing")
  {
    SplitWithoutSeparator(header, ' ');
  }

  /** `header` is `scheme`, a space, a valid `token`, and `rest`, which is
      empty or starts another space-separated word. */
  ghost predicate BearerShape(header: string, scheme: string, token: string, rest: string,
                              tokenValid: string -> bool) {
    && header == scheme + " " + token + rest
    && ' ' !in scheme && ' ' !in token && token != "" && tokenValid(token)
    && (rest == "" || rest[0] == ' ')
  }

  /** Conversely, every header the gate lets through has that shape. */
  lemma ProceedHasBearerShape(header: string, tokenValid: string -> bool)
    requires VerifyAdmin(Some(header), tokenValid) == Proceed
    ensures exists scheme, token, rest :: BearerShape(header, scheme, token, rest, tokenValid)
  {
    var parts := Split(header, ' ');
    assert |parts| >= 2 && parts[1] != "" && tokenValid(parts[1]);
    JoinSplit(header, ' ');
    JoinSecond(parts, ' ');
    var rest := if |parts| == 2 then "" else " " + Join(parts[2..], ' ');
    assert header == parts[0] + " " + parts[1] + rest;
    assert BearerShape(header, parts[0], parts[1], rest, tokenValid);
  }

  /** And every header of that shape gets through: words after the token,
      as in `Bearer <token> extra`, are ignored. */
  lemma BearerShapeProceeds(header: string, scheme: string, token: string, rest: string,
                            tokenValid: string -> bool)
    requires BearerShape(header, scheme, token, rest, tokenValid)
    ensures VerifyAdmin(Some(header), tokenValid) == Proceed
  {
    assert header == scheme + [' '] + (token + rest);
    SplitAfterPiece(scheme, token + rest, ' ');
    if rest == "" {
      assert token + rest == token;
      SplitWithoutSeparator(token, ' ');
    } else {
      assert token + rest == token + [' '] + rest[1..];
      SplitAfterPiece(token, rest[1..], ' ');
    }
  }

  /** Two spaces after the scheme, as in `Bearer  <token>`, leave the second
      word empty: the header is refused as carrying no token. */
  lemma DoubledSpaceLacksToken(scheme: string, rest: string, tokenValid: string -> bool)
    requires ' ' !in scheme
    ensures VerifyAdmin(Some(scheme + "  " + rest), tokenValid) == Denied("Token missing")
  {
    var header := scheme + "  " + rest;
    assert header == scheme + [' '] + ([] + [' '] + rest);
    SplitAfterPiece(scheme, [] + [' '] + rest, ' ');
    SplitAfterPiece([], rest, ' ');
  }

  /** `b => b.totalAmount` and `b => b.quantity`. */
  function Amount(b: Booking): int { b.totalAmount }
  function Quantity(b: Booking): int { b.quantity }

  /** `bookings.reduce((sum, b) => sum + f(b), 0)`. */
  function Sum(bs: seq<Booking>, f: Booking -> int): int {
    if bs == [] then 0 else f(bs[0]) + Sum(bs[1..], f)
  }

  /** `bookings.filter(b => b.ticketType === t)`. */
  function OfType(bs: seq<Booking>, t: string): seq<Booking> {
    if bs == [] then []
    else if bs[0].ticketType == t then [bs[0]] + OfType(bs[1..], t)
    else OfType(bs[1..], t)
  }

  /** Newest first: timestamps never increase along the sequence. */
  ghost predicate NewestFirstOrder(bs: seq<Booking>) {
    forall i, j :: 0 <= i < j < |bs| ==> bs[i].timestamp >= bs[j].timestamp
  }

  /** Inserting a booking into a newest-first list, ahead of every booking
      stamped no later than it. */
  function Insert(b: Booking, s: seq<Booking>): (r: seq<Booking>)
    ensures |r| == |s| + 1
  {
    if s == [] || b.timestamp >= s[0].timestamp then [b] + s else [s[0]] + Insert(b, s[1..])
  }

  /** `Booking.find().sort({ timestamp: -1 })`, ties in an order of the
      model's choosing. */
  function NewestFirst(ledger: seq<Booking>): (r: seq<Booking>)
    ensures |r| == |ledger|
  {
    if ledger == [] then [] else Insert(ledger[|ledger| - 1], NewestFirst(ledger[..|ledger| - 1]))
  }

  /** Insertion adds exactly the one booking. */
  lemma {:induction false} InsertAddsOne(b: Booking, s: seq<Booking>)
    ensures multiset(Insert(b, s)) == multiset(s) + multiset{b}
  {
    if s != [] && b.timestamp < s[0].timestamp {
      InsertAddsOne(b, s[1..]);
      assert s == [s[0]] + s[1..];
    }
  }

  /** Insertion keeps a newest-first list newest first. */
  lemma {:induction false} InsertKeepsOrder(b: Booking, s: seq<Booking>)
    requires NewestFirstOrder(s)
    ensures NewestFirstOrder(Insert(b, s))
  {
    if s != [] && b.timestamp < s[0].timestamp {
      var rest := Insert(b, s[1..]);
      assert NewestFirstOrder(s[1..]) by {
        forall i, j | 0 <= i < j < |s[1..]|
          ensures s[1..][i].timestamp >= s[1..][j].timestamp
        {
          assert s[1..][i] == s[i + 1] && s[1..][j] == s[j + 1];
        }
      }
      InsertKeepsOrder(b, s[1..]);
      assert rest[0] == b || (|s| > 1 && rest[0] == s[1]);
      var r := [s[0]] + rest;
      forall i, j | 0 <= i < j < |r|
        ensures r[i].timestamp >= r[j].timestamp
      {
        if i == 0 && j > 1 {
          assert rest[0].timestamp >= rest[j - 1].timestamp;
        } else if i > 0 {
          assert r[i] == rest[i - 1] && r[j] == rest[j - 1];
        }
      }
    }
  }

  /** Sorting returns the same bookings, newest first. */
  lemma {:induction false} NewestFirstSorts(ledger: seq<Booking>)
    ensures multiset(NewestFirst(ledger)) == multiset(ledger)
    ensures NewestFirstOrder(NewestFirst(ledger))
  {
    if ledger != [] {
      var last := |ledger| - 1;
      NewestFirstSorts(ledger[..last]);
      InsertAddsOne(ledger[last], NewestFirst(ledger[..last]));
      InsertKeepsOrder(ledger[last], NewestFirst(ledger[..last]));
      assert ledger == ledger[..last] + [ledger[last]];
    }
  }

  /** The totals `GET /bookings` reports. */
  datatype Stats = Stats(
    totalRevenue: int,
    totalTickets: int,
    dayPassRevenue: int,
    seasonPassRevenue: int,
    totalBookings: int)

  function StatsOf(bookings: seq<Booking>): Stats {
    Stats(Sum(bookings, Amount), Sum(bookings, Quantity),
          Sum(OfType(bookings, DayPass), Amount), Sum(OfType(bookings, SeasonPass), Amount),
          |bookings|)
  }

  /** 403 from the gate, the dashboard payload, or 500 `Failed to load bookings`. */
  datatype AdminResponse =
    | Forbidden(message: string)
    | Dashboard(stats: Stats, bookings: seq<Booking>)
    | LoadFailed(message: string)

  /** `GET /bookings` behind `verifyAdmin`. */
  function AdminBookings(header: Option<string>, tokenValid: string -> bool,
                         stored: Option<seq<Booking>>): (r: AdminResponse)
    ensures r.Forbidden? <==> VerifyAdmin(header, tokenValid).Denied?
    ensures r.Forbidden? ==> r.message == VerifyAdmin(header, tokenValid).message
    ensures r.LoadFailed? <==> VerifyAdmin(header, tokenValid) == Proceed && stored.None?
    ensures r.Dashboard? ==>
      (stored.Some?
       && multiset(r.bookings) == multiset(stored.value)
       && NewestFirstOrder(r.bookings)
       && r.stats.totalBookings == |stored.value|)
  {
    match VerifyAdmin(header, tokenValid)
    case Denied(message) => Forbidden(message)
    case Proceed =>
      match stored
      case None => LoadFailed("Failed to load bookings")
      case Some(ledger) =>
        NewestFirstSorts(ledger);
        var bookings := NewestFirst(ledger);
        Dashboard(StatsOf(bookings), bookings)
  }

  lemma {:induction false} SumAppend(a: seq<Booking>, b: seq<Booking>, f: Booking -> int)
    ensures Sum(a + b, f) == Sum(a, f) + Sum(b, f)
  {
    if a == [] {
      assert a + b == b;
    } else {
      SumAppend(a[1..], b, f);
      assert (a + b)[0] == a[0];
      assert (a + b)[1..] == a[1..] + b;
    }
  }

  lemma {:induction false} OfTypeAppend(a: seq<Booking>, b: seq<Booking>, t: string)
    ensures OfType(a + b, t) == OfType(a, t) + OfType(b, t)
  {
    if a == [] {
      assert a + b == b;
    } else {
      OfTypeAppend(a[1..], b, t);
      var ab := a + b;
      assert ab[0] == a[0];
      assert ab[1..] == a[1..] + b;
      if a[0].ticketType == t {
        calc {
          OfType(ab, t);
          [a[0]] + OfType(a[1..] + b, t);
          [a[0]] + (OfType(a[1..], t) + OfType(b, t));
          ([a[0]] + OfType(a[1..], t)) + OfType(b, t);
        }
      } else {
        assert OfType(ab, t) == OfType(a[1..] + b, t);
      }
    }
  }

  /** The type filter's sum takes the first booking when its type matches. */
  lemma SumOfTypeStep(x: Booking, s: seq<Booking>, t: string, f: Booking -> int)
    ensures Sum([x] + s, f) == f(x) + Sum(s, f)
    ensures Sum(OfType([x] + s, t), f) == (if x.ticketType == t then f(x) else 0) + Sum(OfType(s, t), f)
  {
    assert ([x] + s)[0] == x;
    assert ([x] + s)[1..] == s;
    if x.ticketType == t {
      assert OfType([x] + s, t) == [x] + OfType(s, t);
      assert ([x] + OfType(s, t))[0] == x;
      assert ([x] + OfType(s, t))[1..] == OfType(s, t);
    } else {
      assert OfType([x] + s, t) == OfType(s, t);
    }
  }

  /** Inserting a booking adds its share to every sum, overall and per type. */
  lemma {:induction false} InsertSums(b: Booking, s: seq<Booking>, t: string, f: Booking -> int)
    ensures Sum(Insert(b, s), f) == f(b) + Sum(s, f)
    ensures Sum(OfType(Insert(b, s), t), f) == (if b.ticketType == t then f(b) else 0) + Sum(OfType(s, t), f)
  {
    if s == [] || b.timestamp >= s[0].timestamp {
      SumOfTypeStep(b, s, t, f);
    } else {
      var rest := Insert(b, s[1..]);
      InsertSums(b, s[1..], t, f);
      SumOfTypeStep(s[0], rest, t, f);
      SumOfTypeStep(s[0], s[1..], t, f);
      assert [s[0]] + s[1..] == s;
    }
  }

  /** Sorting changes no sum, so the dashboard totals are those of the
      ledger in insertion order. */
  lemma {:induction false} NewestFirstSum(ledger: seq<Booking>, f: Booking -> int)
    ensures Sum(NewestFirst(ledger), f) == Sum(ledger, f)
  {
    if ledger != [] {
      var last := |ledger| - 1;
      NewestFirstSum(ledger[..last], f);
      InsertSums(ledger[last], NewestFirst(ledger[..last]), "", f);
      assert ledger == ledger[..last] + [ledger[last]];
      SumAppend(ledger[..last], [ledger[last]], f);
      SumOfTypeStep(ledger[last], [], "", f);
    }
  }

  lemma {:induction false} NewestFirstTypeSum(ledger: seq<Booking>, t: string, f: Booking -> int)
    ensures Sum(OfType(NewestFirst(ledger), t), f) == Sum(OfType(ledger, t), f)
  {
    if ledger != [] {
      var last := |ledger| - 1;
      var x := ledger[last];
      NewestFirstTypeSum(ledger[..last], t, f);
      InsertSums(x, NewestFirst(ledger[..last]), t, f);
      assert ledger == ledger[..last] + [x];
      OfTypeAppend(ledger[..last], [x], t);
      SumAppend(OfType(ledger[..last], t), OfType([x], t), f);
      SumOfTypeStep(x, [], t, f);
      assert [x] + [] == [x];
    }
  }

  /** The dashboard reports the ledger's totals whatever order the
      database returns it in. */
  lemma DashboardReportsLedger(header: Option<string>, tokenValid: string -> bool, ledger: seq<Booking>)
    requires VerifyAdmin(header, tokenValid) == Proceed
    ensures AdminBookings(header, tokenValid, Some(ledger)).Dashboard?
    ensures AdminBookings(header, tokenValid, Some(ledger)).stats == StatsOf(ledger)
  {
    NewestFirstSum(ledger, Amount);
    NewestFirstSum(ledger, Quantity);
    NewestFirstTypeSum(ledger, DayPass, Amount);
    NewestFirstTypeSum(ledger, SeasonPass, Amount);
  }

  /** When every booking is a day pass or a season pass, the two tier
      revenues add up to the total revenue. */
  lemma {:induction false} TierRevenuesPartition(bs: seq<Booking>)
    requires forall i :: 0 <= i < |bs| ==> bs[i].ticketType == DayPass || bs[i].ticketType == SeasonPass
    ensures StatsOf(bs).dayPassRevenue + StatsOf(bs).seasonPassRevenue == StatsOf(bs).totalRevenue
  {
    if bs != [] {
      TierRevenuesPartition(bs[1..]);
      assert [bs[0]] + bs[1..] == bs;
      SumOfTypeStep(bs[0], bs[1..], DayPass, Amount);
      SumOfTypeStep(bs[0], bs[1..], SeasonPass, Amount);
    }
  }

  /** One more booking raises the revenue by its amount, the tickets by its
      quantity, the count by one, and only its own tier's revenue. */
  lemma AppendRaisesStats(ledger: seq<Booking>, b: Booking)
    ensures var before := StatsOf(ledger);
      var after := StatsOf(ledger + [b]);
      && after.totalRevenue == before.totalRevenue + b.totalAmount
      && after.totalTickets == before.totalTickets + b.quantity
      && after.totalBookings == before.totalBookings + 1
      && after.dayPassRevenue == before.dayPassRevenue + (if b.ticketType == DayPass then b.totalAmount else 0)
      && after.seasonPassRevenue == before.seasonPassRevenue + (if b.ticketType == SeasonPass then b.totalAmount else 0)
  {
    SumAppend(ledger, [b], Amount);
    SumAppend(ledger, [b], Quantity);
    OfTypeAppend(ledger, [b], DayPass);
    OfTypeAppend(ledger, [b], SeasonPass);
    SumAppend(OfType(ledger, DayPass), OfType([b], DayPass), Amount);
    SumAppend(OfType(ledger, SeasonPass), OfType([b], SeasonPass), Amount);
  }

  /** A confirmed payment shows on the dashboard: its amount is added to the
      revenue, its quantity to the tickets, and one to the bookings count. */
  lemma ConfirmedPaymentShowsOnDashboard(ledger: seq<Booking>, req: PaymentRoutes.PaymentRequest,
                                         secret: string, hmac: (string, string) -> string, now: int,
                                         quantity: int, amount: int)
    requires req.quantity == Some(quantity) && req.totalAmount == Some(amount)
    requires PaymentRoutes.VerifyPayment(ledger, req, secret, hmac, now).Success?
    ensures var after := StatsOf(PaymentRoutes.VerifyPayment(ledger, req, secret, hmac, now).ledger);
      && after.totalRevenue == StatsOf(ledger).totalRevenue + amount
      && after.totalTickets == StatsOf(ledger).totalTickets + quantity
      && after.totalBookings == |ledger| + 1
  {
    var r := PaymentRoutes.VerifyPayment(ledger, req, secret, hmac, now);
    PaymentRoutes.SuccessRecordsRequest(ledger, req, secret, hmac, now);
    AppendRaisesStats(ledger, r.booking);
  }
}

=== FILE: booking.dfy ===
/** The booking record and the booking ledger: the schema's required fields,
    its `trim`/`lowercase` setters, the defaulted `timestamp`, and the unique
    indexes on `paymentId` and `serialNumber`. The database is an in-memory
    sequence in insertion order. */
module BookingModel {

  import opened Options
  import opened JsText

  /** The two ticket tiers the booking pages offer. */
  const DayPass := "day-pass"
  const SeasonPass := "season-pass"

  /** A stored booking. Amounts are whole rupees; `timestamp` is in milliseconds. */
  datatype Booking = Booking(
    fullName: string,
    email: string,
    phone: string,
    ticketType: string,
    quantity: int,
    totalAmount: int,
    paymentId: string,
    serialNumber: string,
    timestamp: int)

  /** The document handed to `Booking.create`; any field may be missing. */
  datatype Draft = Draft(
    fullName: Option<string>,
    email: Option<string>,
    phone: Option<string>,
    ticketType: Option<string>,
    quantity: Option<int>,
    totalAmount: Option<int>,
    paymentId: Option<string>,
    serialNumber: Option<string>,
    timestamp: Option<int>)

  /** Why an insert was refused: a failed `required` validator or a unique-index violation. */
  datatype CreateError = MissingField(field: string) | DuplicateKey(field: string)

  /** A `required` string is present and non-empty (after its setters ran). */
  predicate Given(v: Option<string>) {
    v.Some? && v.value != ""
  }

  /** A draft every `required` validator accepts. */
  predicate Complete(d: Draft) {
    && d.fullName.Some? && !AllSpace(d.fullName.value)
    && d.email.Some? && !AllSpace(d.email.value)
    && Given(d.phone)
    && Given(d.ticketType)
    && d.quantity.Some?
    && d.totalAmount.Some?
    && Given(d.paymentId)
    && Given(d.serialNumber)
  }

  /** What every stored booking looks like: required strings non-empty, the
      name trimmed and the email trimmed and lower-cased. */
  predicate Stored(b: Booking) {
    && b.fullName != "" && Trim(b.fullName) == b.fullName
    && b.email != "" && ToLower(Trim(b.email)) == b.email
    && b.phone != "" && b.ticketType != "" && b.paymentId != "" && b.serialNumber != ""
  }

  predicate HasPaymentId(ledger: seq<Booking>, paymentId: string) {
    exists i :: 0 <= i < |ledger| && ledger[i].paymentId == paymentId
  }

  predicate HasSerial(ledger: seq<Booking>, serial: string) {
    exists i :: 0 <= i < |ledger| && ledger[i].serialNumber == serial
  }

  ghost predicate UniquePaymentIds(ledger: seq<Booking>) {
    forall i, j :: 0 <= i < j < |ledger| ==> ledger[i].paymentId != ledger[j].paymentId
  }

  ghost predicate UniqueSerials(ledger: seq<Booking>) {
    forall i, j :: 0 <= i < j < |ledger| ==> ledger[i].serialNumber != ledger[j].serialNumber
  }

  /** The ledger invariant the schema maintains. */
  ghost predicate LedgerInvariant(ledger: seq<Booking>) {
    && (forall i :: 0 <= i < |ledger| ==> Stored(ledger[i]))
    && UniquePaymentIds(ledger)
    && UniqueSerials(ledger)
  }

  /** Casting and validation: the setters run first, then the `required`
      validators in schema order; an absent `timestamp` takes `now`. */
  function Validate(d: Draft, now: int): (r: Result<Booking, CreateError>)
    ensures r.Ok? <==> Complete(d)
    ensures r.Ok? ==> Stored(r.value)
    ensures r.Ok? ==>
      && r.value.fullName == Trim(d.fullName.value)
      && r.value.email == ToLower(Trim(d.email.value))
      && r.value.phone == d.phone.value
      && r.value.ticketType == d.ticketType.value
      && r.value.quantity == d.quantity.value
      && r.value.totalAmount == d.totalAmount.value
      && r.value.paymentId == d.paymentId.value
      && r.value.serialNumber == d.serialNumber.value
      && r.value.timestamp == (if d.timestamp.Some? then d.timestamp.value else now)
  {
    if d.fullName.None? || Trim(d.fullName.value) == "" then
      TrimFacts(d.fullName);
      Err(MissingField("fullName"))
    else if d.email.None? || Trim(d.email.value) == "" then
      TrimFacts(d.email);
      Err(MissingField("email"))
    else if !Given(d.phone) then Err(MissingField("phone"))
    else if !Given(d.ticketType) then Err(MissingField("ticketType"))
    else if d.quantity.None? then Err(MissingField("quantity"))
    else if d.totalAmount.None? then Err(MissingField("totalAmount"))
    else if !Given(d.paymentId) then Err(MissingField("paymentId"))
    else if !Given(d.serialNumber) then Err(MissingField("serialNumber"))
    else
      TrimFacts(d.fullName);
      TrimFacts(d.email);
      var name := Trim(d.fullName.value);
      var email := ToLower(Trim(d.email.value));
      TrimIdempotent(d.fullName.value);
      NormalisedEmailIsFixed(d.email.value);
      Ok(Booking(name, email, d.phone.value, d.ticketType.value,
                 d.quantity.value, d.totalAmount.value,
                 d.paymentId.value, d.serialNumber.value, d.timestamp.GetOr(now)))
  }

  lemma TrimFacts(v: Option<string>)
    ensures v.Some? ==> (Trim(v.value) == [] <==> AllSpace(v.value))
  {
    if v.Some? {
      TrimIsEmptyIffBlank(v.value);
    }
  }

  /** The stored email is a fixed point of the email setters. */
  lemma NormalisedEmailIsFixed(s: string)
    ensures ToLower(Trim(ToLower(Trim(s)))) == ToLower(Trim(s))
  {
    LowerCommutesWithTrim(Trim(s));
    TrimIdempotent(s);
    ToLowerIdempotent(Trim(s));
  }

  /** Appending a stored booking with fresh keys keeps the ledger invariant. */
  lemma AppendKeepsInvariant(ledger: seq<Booking>, b: Booking)
    requires Stored(b)
    requires !HasPaymentId(ledger, b.paymentId) && !HasSerial(ledger, b.serialNumber)
    ensures LedgerInvariant(ledger) ==> LedgerInvariant(ledger + [b])
  {
    if LedgerInvariant(ledger) {
      var l := ledger + [b];
      forall i, j | 0 <= i < j < |l|
        ensures l[i].paymentId != l[j].paymentId && l[i].serialNumber != l[j].serialNumber
      {
        assert l[i] == ledger[i];
        if j < |ledger| {
          assert l[j] == ledger[j];
        }
      }
    }
  }

  /** `Booking.create`: validation, then the unique indexes. On success the
      caller's ledger grows by exactly the returned booking. */
  function Create(ledger: seq<Booking>, d: Draft, now: int): (r: Result<Booking, CreateError>)
    ensures r.Ok? <==>
      Complete(d) && !HasPaymentId(ledger, d.paymentId.value) && !HasSerial(ledger, d.serialNumber.value)
    ensures r.Ok? ==> r == Validate(d, now)
    ensures r.Ok? && LedgerInvariant(ledger) ==> LedgerInvariant(ledger + [r.value])
    ensures Complete(d) && HasPaymentId(ledger, d.paymentId.value) ==> r == Err(DuplicateKey("paymentId"))
  {
    match Validate(d, now)
    case Err(e) => Err(e)
    case Ok(b) =>
      if HasPaymentId(ledger, b.paymentId) then Err(DuplicateKey("paymentId"))
      else if HasSerial(ledger, b.serialNumber) then Err(DuplicateKey("serialNumber"))
      else
        AppendKeepsInvariant(ledger, b);
        Ok(b)
  }

  /** The number of bookings of one ticket type. */
  function CountOfType(ledger: seq<Booking>, ticketType: string): (n: nat)
    ensures n <= |ledger|
  {
    if ledger == [] then 0
    else
      CountOfType(ledger[..|ledger| - 1], ticketType)
        + (if ledger[|ledger| - 1].ticketType == ticketType then 1 else 0)
  }

  /** Extending a prefix by one booking adds one exactly when its type matches. */
  lemma CountStep(ledger: seq<Booking>, i: nat, ticketType: string)
    requires i < |ledger|
    ensures CountOfType(ledger[..i + 1], ticketType)
      == CountOfType(ledger[..i], ticketType) + (if ledger[i].ticketType == ticketType then 1 else 0)
  {
    assert ledger[..i + 1][..i] == ledger[..i];
  }

  /** A booking of the type comes after fewer bookings of that type than
      the whole ledger holds. */
  lemma {:induction false} CountBeforeIsSmaller(ledger: seq<Booking>, i: nat, ticketType: string)
    requires i < |ledger| && ledger[i].ticketType == ticketType
    ensures CountOfType(ledger[..i], ticketType) < CountOfType(ledger, ticketType)
    decreases |ledger|
  {
    var last := |ledger| - 1;
    if i == last {
      assert ledger[..last] == ledger[..i];
    } else {
      assert ledger[..last][..i] == ledger[..i];
      CountBeforeIsSmaller(ledger[..last], i, ticketType);
    }
  }

  /** When nothing after position `i` has the type, the bookings of that type
      are those up to and including `i`. */
  lemma {:induction false} CountUpToLast(ledger: seq<Booking>, i: nat, ticketType: string)
    requires i < |ledger| && ledger[i].ticketType == ticketType
    requires forall j :: i < j < |ledger| ==> ledger[j].ticketType != ticketType
    ensures CountOfType(ledger, ticketType) == CountOfType(ledger[..i], ticketType) + 1
    decreases |ledger|
  {
    var last := |ledger| - 1;
    if i == last {
      assert ledger[..last] == ledger[..i];
    } else {
      assert ledger[..last][..i] == ledger[..i];
      CountUpToLast(ledger[..last], i, ticketType);
    }
  }

  /** Appending one booking counts it under its own type only. */
  lemma CountAppend(ledger: seq<Booking>, b: Booking, ticketType: string)
    ensures CountOfType(ledger + [b], ticketType)
      == CountOfType(ledger, ticketType) + (if b.ticketType == ticketType then 1 else 0)
  {
    assert (ledger + [b])[..|ledger|] == ledger;
  }
}

=== FILE: home.dfy ===
/** The booking page of the React client: the ticket selection and its price,
    the total shown and charged, the checks before checkout, the confirmation
    payload sent after the gateway's callback, and the FAQ accordion. */
module HomePage {

  import opened Options
  import opened JsText
  import opened JsNumber
  import opened BookingModel
  import opened PricingModel
  import PaymentRoutes

  /** The four form inputs, as the text the user typed or chose. */
  datatype Form = Form(fullName: string, email: string, phone: string, quantity: string)

  const EmptyForm := Form("", "", "", "")

  /** The component's state that the booking logic reads. */
  datatype Page = Page(
    prices: Pricing,
    selectedTicket: Option<string>,
    selectedPrice: int,
    form: Form,
    activeFaq: Option<nat>)

  /** Before the first price load every price shows as zero. */
  const InitialPage := Page(Pricing(0, 0), None, 0, EmptyForm, None)

  /** The price of a tier in a pricing; other ticket types have none. */
  function TierPrice(p: Pricing, t: string): (r: Option<int>)
    ensures r.Some? <==> t == DayPass || t == SeasonPass
  {
    if t == DayPass then Some(p.dayPass)
    else if t == SeasonPass then Some(p.seasonPass)
    else None
  }

  /** The price shown is the current price of the selected tier. */
  predicate PriceInSync(page: Page) {
    page.selectedTicket.Some? && TierPrice(page.prices, page.selectedTicket.value).Some? ==>
      page.selectedPrice == TierPrice(page.prices, page.selectedTicket.value).value
  }

  /** The effect that re-reads the selected tier's price whenever the prices
      or the selection change; an unknown selection keeps the old price. */
  function SyncPrice(page: Page): (r: Page)
    ensures PriceInSync(r)
    ensures r.selectedTicket == page.selectedTicket && r.prices == page.prices
    ensures r.form == page.form && r.activeFaq == page.activeFaq
    ensures PriceInSync(page) ==> r == page
  {
    match page.selectedTicket
    case Some(t) =>
      (match TierPrice(page.prices, t)
       case Some(p) => page.(selectedPrice := p)
       case None => page)
    case None => page
  }

  /** `selectTicket`, followed by the price effect it triggers. */
  function SelectTicket(page: Page, t: string): (r: Page)
    ensures r.selectedTicket == Some(t)
    ensures PriceInSync(r)
    ensures TierPrice(page.prices, t).None? ==> r.selectedPrice == page.selectedPrice
    ensures r.prices == page.prices && r.form == page.form && r.activeFaq == page.activeFaq
  {
    var chosen := page.(selectedTicket := Some(t));
    match TierPrice(page.prices, t)
    case Some(p) => SyncPrice(chosen.(selectedPrice := p))
    case None => SyncPrice(chosen)
  }

  /** `loadPrices` (on mount and every thirty seconds), followed by the price effect. */
  function LoadPrices(page: Page, fetched: Pricing): (r: Page)
    ensures r.prices == fetched && PriceInSync(r)
    ensures r.selectedTicket == page.selectedTicket && r.form == page.form && r.activeFaq == page.activeFaq
  {
    SyncPrice(page.(prices := fetched))
  }

  /** `selectedPrice * (parseInt(quantity) || 0)`: the total shown and charged. */
  function TotalAmount(page: Page): int {
    page.selectedPrice * IntOrZero(page.form.quantity)
  }

  /** The quantity menu offers the numerals 1 to 5: the total of a numeral
      choice is the price times that numeral. */
  lemma QuantityChoiceTotals(page: Page, n: nat)
    requires page.form.quantity == DecimalText(n)
    ensures TotalAmount(page) == page.selectedPrice * n
  {
    IntOrZeroOfNumeral(n);
  }

  /** The answers of `handleSubmit` before any request is made, in the order
      it checks them. */
  datatype SubmitCheck = NoTicket | FieldsMissing | InvalidPhone | Ready

  function CheckSubmit(page: Page): (r: SubmitCheck)
    ensures r == Ready <==>
      && Given(page.selectedTicket)
      && page.form.fullName != "" && page.form.email != "" && page.form.phone != "" && page.form.quantity != ""
      && IsTenDigits(page.form.phone)
    ensures !Given(page.selectedTicket) <==> r == NoTicket
    ensures r == FieldsMissing <==>
      && Given(page.selectedTicket)
      && (page.form.fullName == "" || page.form.email == "" || page.form.phone == "" || page.form.quantity == "")
    ensures r == InvalidPhone ==> page.form.phone != "" && !IsTenDigits(page.form.phone)
  {
    if !Given(page.selectedTicket) then NoTicket
    else if page.form.fullName == "" || page.form.email == "" || page.form.phone == "" || page.form.quantity == "" then
      FieldsMissing
    else if !IsTenDigits(page.form.phone) then InvalidPhone
    else Ready
  }

  /** What the gateway's checkout hands back to the success handler. */
  datatype CheckoutResponse = CheckoutResponse(orderId: Option<string>, paymentId: Option<string>, signature: Option<string>)

  /** The confirmation body: the form fields as typed, the quantity through
      `parseInt` (`NaN` travels as `null`), and the same total the order was
      created for. */
  function Payload(page: Page, response: CheckoutResponse): (req: PaymentRoutes.PaymentRequest)
    ensures req.totalAmount == Some(TotalAmount(page))
    ensures req.quantity == ParseInt(page.form.quantity)
    ensures req.selectedTicketType == page.selectedTicket
  {
    PaymentRoutes.PaymentRequest(
      response.orderId, response.paymentId, response.signature,
      Some(page.form.fullName), Some(page.form.email), Some(page.form.phone),
      page.selectedTicket, ParseInt(page.form.quantity), Some(TotalAmount(page)))
  }

  /** The success handler: a booked confirmation clears the form and the
      selection (the price shown stays); anything else leaves the page as it is. */
  function OnVerified(page: Page, outcome: PaymentRoutes.VerifyOutcome): (r: Page)
    ensures outcome.Success? ==> CheckSubmit(r) == NoTicket && r.form == EmptyForm
    ensures !outcome.Success? ==> r == page
    ensures PriceInSync(page) ==> PriceInSync(r)
  {
    if outcome.Success? then page.(form := EmptyForm, selectedTicket := None) else page
  }

  /** The amount charged is the amount booked: the order is created for one
      hundred times the total in paise, and a booked confirmation records that
      total, the parsed quantity and the selected tier. */
  lemma ChargedAmountIsBooked(page: Page, response: CheckoutResponse, ledger: seq<Booking>,
                              secret: string, hmac: (string, string) -> string, now: int, orderTime: nat, b: Booking)
    requires PaymentRoutes.VerifyPayment(ledger, Payload(page, response), secret, hmac, now) == PaymentRoutes.Success(b, ledger + [b])
    ensures b.totalAmount == TotalAmount(page)
    ensures PaymentRoutes.RouteOrderOptions(TotalAmount(page), orderTime).amount == 100 * b.totalAmount
    ensures Some(b.quantity) == ParseInt(page.form.quantity)
    ensures Some(b.ticketType) == page.selectedTicket
  {
    PaymentRoutes.BookedAmounts(ledger, Payload(page, response), secret, hmac, now, b);
  }

  /** The booked total is the price shown times the booked quantity, and with
      the price in sync it is the tier's latest loaded price times the quantity. */
  lemma BookedTotalFollowsPrice(page: Page, response: CheckoutResponse, ledger: seq<Booking>,
                                secret: string, hmac: (string, string) -> string, now: int, b: Booking)
    requires PriceInSync(page)
    requires PaymentRoutes.VerifyPayment(ledger, Payload(page, response), secret, hmac, now) == PaymentRoutes.Success(b, ledger + [b])
    ensures b.totalAmount == page.selectedPrice * b.quantity
    ensures TierPrice(page.prices, b.ticketType).Some? ==>
      b.totalAmount == TierPrice(page.prices, b.ticketType).value * b.quantity
  {
    ChargedAmountIsBooked(page, response, ledger, secret, hmac, now, 0, b);
    assert IntOrZero(page.form.quantity) == b.quantity;
  }

  /** A form the page accepts whose name is only white space still goes to
      the gateway, and its confirmation is answered with an error: the
      schema trims the name to nothing and refuses it. */
  lemma BlankNameIsPaidButNotBooked(page: Page, response: CheckoutResponse, ledger: seq<Booking>,
                                    secret: string, hmac: (string, string) -> string, now: int)
    requires CheckSubmit(page) == Ready && AllSpace(page.form.fullName)
    requires PaymentRoutes.SignatureMatches(Payload(page, response), secret, hmac)
    ensures PaymentRoutes.VerifyPayment(ledger, Payload(page, response), secret, hmac, now) == PaymentRoutes.Error
  {
    PaymentRoutes.SuccessIff(ledger, Payload(page, response), secret, hmac, now);
  }

  /** A quantity with no leading numeral passes the page's check but reaches
      the server as `null`, which the required quantity refuses. */
  lemma UnparsableQuantityIsNotBooked(page: Page, response: CheckoutResponse, ledger: seq<Booking>,
                                      secret: string, hmac: (string, string) -> string, now: int)
    requires CheckSubmit(page) == Ready && ParseInt(page.form.quantity).None?
    requires PaymentRoutes.SignatureMatches(Payload(page, response), secret, hmac)
    ensures PaymentRoutes.VerifyPayment(ledger, Payload(page, response), secret, hmac, now) == PaymentRoutes.Error
  {
    var req := Payload(page, response);
    assert req.quantity.None?;
    assert !PaymentRoutes.RequestComplete(req);
    PaymentRoutes.SuccessIff(ledger, req, secret, hmac, now);
  }

  /** Conversely, an accepted form with a non-blank name and email and a
      numeral quantity yields a complete request once the gateway supplies a
      payment id. */
  lemma AcceptedFormIsComplete(page: Page, response: CheckoutResponse)
    requires CheckSubmit(page) == Ready
    requires !AllSpace(page.form.fullName) && !AllSpace(page.form.email)
    requires ParseInt(page.form.quantity).Some? && Given(response.paymentId)
    ensures PaymentRoutes.RequestComplete(Payload(page, response))
  {
  }

  /** The events of the page that touch the booking state. */
  datatype Event =
    | Select(ticket: string)
    | PricesLoaded(fetched: Pricing)
    | Edit(form: Form)
    | Verified(outcome: PaymentRoutes.VerifyOutcome)
    | FaqClicked(index: nat)

  function Apply(page: Page, e: Event): Page {
    match e
    case Select(t) => SelectTicket(page, t)
    case PricesLoaded(p) => LoadPrices(page, p)
    case Edit(f) => page.(form := f)
    case Verified(o) => OnVerified(page, o)
    case FaqClicked(i) => page.(activeFaq := ToggleFaq(page.activeFaq, i))
  }

  function Replay(page: Page, events: seq<Event>): Page
    decreases |events|
  {
    if events == [] then page else Replay(Apply(page, events[0]), events[1..])
  }

  /** Whatever happens on the page, the price shown for a selected tier is
      that tier's latest loaded price. */
  lemma {:induction false} PriceStaysInSync(page: Page, events: seq<Event>)
    requires PriceInSync(page)
    ensures PriceInSync(Replay(page, events))
    decreases |events|
  {
    if events != [] {
      var next := Apply(page, events[0]);
      assert PriceInSync(next);
      PriceStaysInSync(next, events[1..]);
    }
  }

  /** The page starts in sync: nothing is selected. */
  lemma InitialPageInSync()
    ensures PriceInSync(InitialPage) && TotalAmount(InitialPage) == 0
    ensures CheckSubmit(InitialPage) == NoTicket
  {
  }

  /** `toggleFaq`: clicking the open question closes it, clicking another
      opens that one alone. */
  function ToggleFaq(active: Option<nat>, index: nat): (r: Option<nat>)
    ensures r == Some(index) <==> active != Some(index)
    ensures r.None? <==> active == Some(index)
  {
    if active == Some(index) then None else Some(index)
  }

  /** Clicking the same question twice restores the accordion when that
      question or none was open. */
  lemma ToggleFaqTwice(active: Option<nat>, index: nat)
    requires active.None? || active == Some(index)
    ensures ToggleFaq(ToggleFaq(active, index), index) == active
  {
  }

  /** The heading of the summary: a name for each tier, nothing otherwise. */
  function TicketName(selected: Option<string>): (r: string)
    ensures r != "" <==> selected == Some(DayPass) || selected == Some(SeasonPass)
    ensures r == "Day Pass" <==> selected == Some(DayPass)
    ensures r == "Season Ticket" <==> selected == Some(SeasonPass)
  {
    if selected == Some(DayPass) then "Day Pass"
    else if selected == Some(SeasonPass) then "Season Ticket"
    else ""
  }
}

=== FILE: jsnumber.dfy ===
/** JavaScript number conversions used by the booking code: `parseInt`,
    `String(n)` and the `n || 0` idiom. Numbers are integers here; `NaN` is
    `None`. */
module JsNumber {

  import opened Options
  import opened JsText

  predicate IsHexDigit(c: char) {
    IsDecimalDigit(c) || 'a' <= c <= 'f' || 'A' <= c <= 'F'
  }

  /** The digits `parseInt` accepts in base 10 or, after a `0x` prefix, base 16. */
  predicate IsDigitIn(c: char, radix: nat) {
    if radix == 16 then IsHexDigit(c) else IsDecimalDigit(c)
  }

  function DigitValue(c: char): (d: nat)
    requires IsHexDigit(c)
    ensures d < 16
    ensures IsDecimalDigit(c) ==> d < 10
  {
    if IsDecimalDigit(c) then c as int - '0' as int
    else if 'a' <= c <= 'f' then c as int - 'a' as int + 10
    else c as int - 'A' as int + 10
  }

  /** The value of a digit string read most significant digit first (the
      digit scanner only ever hands it digits; anything else would count as
      zero). */
  function DigitsValue(s: string, radix: nat): nat {
    if s == [] then 0
    else
      var last := s[|s| - 1];
      DigitsValue(s[..|s| - 1], radix) * radix + (if IsHexDigit(last) then DigitValue(last) else 0)
  }

  /** The longest prefix of `s` made of digits in `radix`. */
  function LeadingDigits(s: string, radix: nat): (r: string)
    ensures |r| <= |s| && r == s[..|r|]
    ensures forall i :: 0 <= i < |r| ==> IsDigitIn(r[i], radix)
    ensures |r| == |s| || !IsDigitIn(s[|r|], radix)
  {
    if s == [] || !IsDigitIn(s[0], radix) then [] else [s[0]] + LeadingDigits(s[1..], radix)
  }

  /** The value of the digits `parseInt` reads after the sign: a `0x`/`0X`
      prefix selects base 16; no digits at all is `NaN`. */
  function ParseMagnitude(u: string): Option<nat> {
    var hex := |u| >= 2 && u[0] == '0' && (u[1] == 'x' || u[1] == 'X');
    var radix := if hex then 16 else 10;
    var digits := LeadingDigits(if hex then u[2..] else u, radix);
    if digits == [] then None else Some(DigitsValue(digits, radix))
  }

  /** `parseInt(s)` with no radix: leading white space is skipped, one sign is
      read, and the longest run of digits that follows is the value. */
  function ParseInt(s: string): Option<int> {
    var t := TrimStart(s);
    if |t| > 0 && t[0] == '-' then Negate(ParseMagnitude(t[1..]))
    else if |t| > 0 && t[0] == '+' then ParseMagnitude(t[1..])
    else ParseMagnitude(t)
  }

  /** Unary minus on a magnitude that may be `NaN`. */
  function Negate(m: Option<nat>): Option<int> {
    match m
    case None => None
    case Some(k) => Some(-(k as int))
  }

  lemma NegateOf(m: Option<nat>, k: nat)
    requires m == Some(k)
    ensures Negate(m) == Some(-(k as int))
  {
  }

  function DigitChar(d: nat): (c: char)
    requires d < 10
    ensures IsDecimalDigit(c) && DigitValue(c) == d
  {
    ('0' as int + d) as char
  }

  /** The decimal numeral of `n`, without leading zeros. */
  function DecimalText(n: nat): (r: string)
    ensures |r| >= 1
  {
    if n < 10 then [DigitChar(n)] else DecimalText(n / 10) + [DigitChar(n % 10)]
  }

  /** A numeral is made of decimal digits only. */
  lemma {:induction false} DecimalTextDigits(n: nat)
    ensures forall i :: 0 <= i < |DecimalText(n)| ==> IsDecimalDigit(DecimalText(n)[i])
  {
    if n >= 10 {
      DecimalTextDigits(n / 10);
      var d := DecimalText(n / 10);
      assert DecimalText(n) == d + [DigitChar(n % 10)];
    }
  }

  /** `String(n)` for a number: `"NaN"`, or an optional minus sign and the
      decimal numeral of the magnitude. */
  function NumberText(n: Option<int>): string {
    match n
    case None => "NaN"
    case Some(i) => if i < 0 then "-" + DecimalText(-i) else DecimalText(i)
  }

  /** Reading back a numeral gives the number it was written from. */
  lemma {:induction false} DecimalTextValue(n: nat)
    ensures DigitsValue(DecimalText(n), 10) == n
  {
    if n >= 10 {
      DecimalTextValue(n / 10);
      var s := DecimalText(n);
      assert s[..|s| - 1] == DecimalText(n / 10);
    }
  }

  /** Leading zeros do not change the value of a digit string. */
  lemma {:induction false} LeadingZerosValue(k: nat, s: string, radix: nat)
    ensures DigitsValue(Repeat('0', k) + s, radix) == DigitsValue(s, radix)
  {
    var z := Repeat('0', k);
    RepeatChars('0', k);
    if s == [] {
      assert z + s == z;
      ZerosValue(k, radix);
    } else {
      LeadingZerosValue(k, s[..|s| - 1], radix);
      assert (z + s)[..|z + s| - 1] == z + s[..|s| - 1];
    }
  }

  lemma {:induction false} ZerosValue(k: nat, radix: nat)
    ensures DigitsValue(Repeat('0', k), radix) == 0
  {
    RepeatChars('0', k);
    if k > 0 {
      ZerosValue(k - 1, radix);
      RepeatChars('0', k - 1);
      var z := Repeat('0', k);
      assert z[..k - 1] == Repeat('0', k - 1);
    }
  }

  /** A string of digits is read whole by the digit scanner. */
  lemma AllDigitsAreLeading(s: string)
    requires forall i :: 0 <= i < |s| ==> IsDecimalDigit(s[i])
    ensures LeadingDigits(s, 10) == s
  {
  }

  /** A non-empty decimal numeral, leading zeros allowed, is read whole. */
  lemma DecimalMagnitude(s: string)
    requires |s| >= 1
    requires forall i :: 0 <= i < |s| ==> IsDecimalDigit(s[i])
    ensures ParseMagnitude(s) == Some(DigitsValue(s, 10))
  {
    if |s| >= 2 {
      assert IsDecimalDigit(s[1]);
    }
    assert !(|s| >= 2 && s[0] == '0' && (s[1] == 'x' || s[1] == 'X'));
    AllDigitsAreLeading(s);
  }

  /** A string that starts with a digit has no white space to skip. */
  lemma DigitStartIsTrimmed(s: string)
    requires |s| >= 1 && IsDecimalDigit(s[0])
    ensures TrimStart(s) == s
  {
    assert !IsSpace(s[0]);
  }

  /** A non-empty run of decimal digits parses to its value. */
  lemma ParseDigits(s: string)
    requires |s| >= 1
    requires forall i :: 0 <= i < |s| ==> IsDecimalDigit(s[i])
    ensures ParseInt(s) == Some(DigitsValue(s, 10))
  {
    DigitStartIsTrimmed(s);
    DecimalMagnitude(s);
  }

  /** `parseInt` reads back a zero-padded decimal numeral exactly: the
      inverse of `padStart` over `String(n)` for a non-negative `n`. */
  lemma ParsePaddedDecimal(k: nat, n: nat)
    ensures ParseInt(Repeat('0', k) + DecimalText(n)) == Some(n)
  {
    var s := Repeat('0', k) + DecimalText(n);
    PaddedDigits(k, n);
    ParseDigits(s);
    LeadingZerosValue(k, DecimalText(n), 10);
    DecimalTextValue(n);
  }

  /** Zeros followed by a numeral are digits throughout. */
  lemma PaddedDigits(k: nat, n: nat)
    ensures forall i :: 0 <= i < k + |DecimalText(n)| ==> IsDecimalDigit((Repeat('0', k) + DecimalText(n))[i])
  {
    var d := DecimalText(n);
    var s := Repeat('0', k) + d;
    RepeatChars('0', k);
    DecimalTextDigits(n);
    forall i | 0 <= i < |s|
      ensures IsDecimalDigit(s[i])
    {
      if i >= k {
        assert s[i] == d[i - k];
      } else {
        assert s[i] == Repeat('0', k)[i];
      }
    }
  }

  /** `parseInt(String(i)) == i` for every integer `i`. */
  lemma ParseNumberText(i: int)
    ensures ParseInt(NumberText(Some(i))) == Some(i)
  {
    if i < 0 {
      ParseNegativeText(i);
    } else {
      ParseNonNegativeText(i);
    }
  }

  lemma ParseNonNegativeText(n: nat)
    ensures ParseInt(NumberText(Some(n))) == Some(n)
  {
    var d := DecimalText(n);
    DecimalTextDigits(n);
    DecimalTextValue(n);
    assert NumberText(Some(n)) == d;
    ParseDigits(d);
  }

  lemma ParseNegativeText(i: int)
    requires i < 0
    ensures ParseInt(NumberText(Some(i))) == Some(i)
  {
    var d := DecimalText(-i);
    DecimalTextDigits(-i);
    DecimalTextValue(-i);
    var s := NumberText(Some(i));
    assert s[1..] == d;
    ParseNegative(s);
  }

  /** A minus sign before a run of decimal digits negates their value. */
  lemma ParseNegative(s: string)
    requires |s| >= 2 && s[0] == '-'
    requires forall i :: 1 <= i < |s| ==> IsDecimalDigit(s[i])
    ensures ParseInt(s) == Some(-(DigitsValue(s[1..], 10) as int))
  {
    assert !IsSpace(s[0]);
    assert TrimStart(s) == s;
    DecimalMagnitude(s[1..]);
    NegateOf(ParseMagnitude(s[1..]), DigitsValue(s[1..], 10));
  }

  /** White space alone, and in particular the empty string, parses to `NaN`. */
  lemma ParseBlankIsNaN(s: string)
    requires AllSpace(s)
    ensures ParseInt(s) == None
  {
    BlankTrimsAway(s);
  }

  /** `parseInt(s) || 0`: `NaN` and zero both give zero. */
  function IntOrZero(s: string): int {
    ParseInt(s).GetOr(0)
  }

  /** The empty input counts as zero and a numeral as its value. */
  lemma IntOrZeroOfNumeral(n: nat)
    ensures IntOrZero("") == 0
    ensures IntOrZero(DecimalText(n)) == n
  {
    ParseBlankIsNaN("");
    ParsePaddedDecimal(0, n);
    assert Repeat('0', 0) + DecimalText(n) == DecimalText(n);
  }
}

=== FILE: jstext.dfy ===
/** The JavaScript string operations the booking code relies on: `trim`,
    `toLowerCase`, `includes`, `split`, `padStart` and a regular-expression
    digit test. Strings are sequences of code points; case mapping covers the
    ASCII letters only. */
module JsText {

  import opened Options

  /** JavaScript's WhiteSpace and LineTerminator code points: what `trim`
      strips and what `parseInt` skips before the number. */
  predicate IsSpace(c: char) {
    || c == '\t' || c == '\n' || c == '\U{000B}' || c == '\U{000C}' || c == '\r'
    || c == ' ' || c == '\U{00A0}' || c == '\U{1680}' || ('\U{2000}' <= c <= '\U{200A}')
    || c == '\U{2028}' || c == '\U{2029}' || c == '\U{202F}' || c == '\U{205F}'
    || c == '\U{3000}' || c == '\U{FEFF}'
  }

  predicate IsDecimalDigit(c: char) {
    '0' <= c <= '9'
  }

  predicate AllSpace(s: string) {
    forall i :: 0 <= i < |s| ==> IsSpace(s[i])
  }

  /** `String.prototype.trimStart`: drops the leading white space and nothing else. */
  function TrimStart(s: string): (r: string)
    ensures |r| <= |s| && r == s[|s| - |r|..]
    ensures AllSpace(s[..|s| - |r|])
    ensures r == [] || !IsSpace(r[0])
  {
    if s == [] || !IsSpace(s[0]) then s else TrimStart(s[1..])
  }

  /** `String.prototype.trimEnd`: drops the trailing white space and nothing else. */
  function TrimEnd(s: string): (r: string)
    ensures |r| <= |s| && r == s[..|r|]
    ensures AllSpace(s[|r|..])
    ensures r == [] || !IsSpace(r[|r| - 1])
  {
    if s == [] || !IsSpace(s[|s| - 1]) then s else TrimEnd(s[..|s| - 1])
  }

  /** `String.prototype.trim`. */
  function Trim(s: string): string {
    TrimEnd(TrimStart(s))
  }

  /** A string made only of white space trims away entirely. */
  lemma {:induction false} BlankTrimsAway(s: string)
    requires AllSpace(s)
    ensures TrimStart(s) == []
  {
    if s != [] {
      BlankTrimsAway(s[1..]);
    }
  }

  /** A string trims to nothing exactly when it is all white space, which is
      what `!query.trim()` and a `trim`-then-`required` check test. */
  lemma TrimIsEmptyIffBlank(s: string)
    ensures Trim(s) == [] <==> AllSpace(s)
  {
    var t := TrimStart(s);
    assert s == s[..|s| - |t|] + t;
    if Trim(s) == [] {
      assert AllSpace(t[0..]);
      forall i | 0 <= i < |s|
        ensures IsSpace(s[i])
      {
        if i >= |s| - |t| {
          assert s[i] == t[i - (|s| - |t|)];
        } else {
          assert s[i] == s[..|s| - |t|][i];
        }
      }
    }
    if AllSpace(s) {
      BlankTrimsAway(s);
    }
  }

  /** Trimming is idempotent: a stored trimmed value is already normalised. */
  lemma TrimIdempotent(s: string)
    ensures Trim(Trim(s)) == Trim(s)
  {
    var t := Trim(s);
    if t != [] {
      var u := TrimStart(s);
      assert t[0] == u[0];
    }
  }

  /** The ASCII upper-case letters map to their lower-case forms. */
  function LowerChar(c: char): char {
    if 'A' <= c <= 'Z' then (c as int + 32) as char else c
  }

  /** `String.prototype.toLowerCase`, restricted to ASCII letters. */
  function ToLower(s: string): (r: string)
    ensures |r| == |s|
    ensures forall i :: 0 <= i < |s| ==> r[i] == LowerChar(s[i])
  {
    seq(|s|, i requires 0 <= i < |s| => LowerChar(s[i]))
  }

  /** Lower-casing leaves no upper-case letter and is therefore idempotent. */
  lemma ToLowerIdempotent(s: string)
    ensures forall i :: 0 <= i < |s| ==> !('A' <= ToLower(s)[i] <= 'Z')
    ensures ToLower(ToLower(s)) == ToLower(s)
  {
  }

  /** Lower-casing maps no character into or out of white space. */
  lemma LowerKeepsSpace(c: char)
    ensures IsSpace(LowerChar(c)) == IsSpace(c)
  {
  }

  lemma {:induction false} LowerCommutesWithTrimStart(s: string)
    ensures TrimStart(ToLower(s)) == ToLower(TrimStart(s))
  {
    if s != [] {
      var l := ToLower(s);
      LowerKeepsSpace(s[0]);
      assert l[0] == LowerChar(s[0]);
      if IsSpace(s[0]) {
        LowerCommutesWithTrimStart(s[1..]);
        assert l[1..] == ToLower(s[1..]);
      }
    }
  }

  lemma {:induction false} LowerCommutesWithTrimEnd(s: string)
    ensures TrimEnd(ToLower(s)) == ToLower(TrimEnd(s))
  {
    if s != [] {
      LowerKeepsSpace(s[|s| - 1]);
      LowerCommutesWithTrimEnd(s[..|s| - 1]);
      assert ToLower(s)[..|s| - 1] == ToLower(s[..|s| - 1]);
    }
  }

  /** Trimming and lower-casing commute, so the order in which the two
      setters of a field run does not matter. */
  lemma LowerCommutesWithTrim(s: string)
    ensures Trim(ToLower(s)) == ToLower(Trim(s))
  {
    LowerCommutesWithTrimStart(s);
    LowerCommutesWithTrimEnd(TrimStart(s));
  }

  predicate StartsWith(s: string, prefix: string) {
    |prefix| <= |s| && s[..|prefix|] == prefix
  }

  /** `hay.includes(needle)`. */
  predicate Includes(hay: string, needle: string)
    decreases |hay|
  {
    StartsWith(hay, needle) || (hay != [] && Includes(hay[1..], needle))
  }

  ghost predicate OccursAt(hay: string, needle: string, i: int) {
    0 <= i && i + |needle| <= |hay| && hay[i..i + |needle|] == needle
  }

  /** `includes` holds exactly when the needle occurs at some position. */
  lemma {:induction false} IncludesIffOccurs(hay: string, needle: string)
    ensures Includes(hay, needle) <==> exists i :: OccursAt(hay, needle, i)
    decreases |hay|
  {
    if hay != [] {
      IncludesIffOccurs(hay[1..], needle);
    }
    if Includes(hay, needle) {
      if StartsWith(hay, needle) {
        assert OccursAt(hay, needle, 0);
      } else {
        var j :| OccursAt(hay[1..], needle, j);
        assert hay[1..][j..j + |needle|] == hay[j + 1..j + 1 + |needle|];
        assert OccursAt(hay, needle, j + 1);
      }
    }
    forall i | OccursAt(hay, needle, i)
      ensures Includes(hay, needle)
    {
      if i > 0 {
        assert hay[1..][i - 1..i - 1 + |needle|] == hay[i..i + |needle|];
        assert OccursAt(hay[1..], needle, i - 1);
      }
    }
  }

  /** `s.split(sep)` for a one-character separator: the pieces between the
      separators, empty pieces included. */
  function Split(s: string, sep: char): (parts: seq<string>)
    ensures |parts| >= 1
    ensures forall k :: 0 <= k < |parts| ==> sep !in parts[k]
  {
    if s == [] then [[]]
    else
      var rest := Split(s[1..], sep);
      if s[0] == sep then [[]] + rest else [[s[0]] + rest[0]] + rest[1..]
  }

  /** `parts.join(sep)`. */
  function Join(parts: seq<string>, sep: char): string
    requires |parts| >= 1
  {
    if |parts| == 1 then parts[0] else parts[0] + [sep] + Join(parts[1..], sep)
  }

  /** A join of two or more pieces spelled out up to the second piece. */
  lemma JoinSecond(parts: seq<string>, sep: char)
    requires |parts| >= 2
    ensures Join(parts, sep)
      == parts[0] + [sep] + parts[1] + (if |parts| == 2 then [] else [sep] + Join(parts[2..], sep))
  {
    assert parts[1..][1..] == parts[2..];
  }

  /** `s.split(sep)[k]`, `None` standing for `undefined`. */
  function Field(s: string, sep: char, k: nat): Option<string> {
    var parts := Split(s, sep);
    if k < |parts| then Some(parts[k]) else None
  }

  /** Joining the pieces restores the string. */
  lemma {:induction false} JoinSplit(s: string, sep: char)
    ensures Join(Split(s, sep), sep) == s
  {
    if s != [] {
      JoinSplit(s[1..], sep);
      var rest := Split(s[1..], sep);
      if s[0] == sep {
        assert ([[]] + rest)[1..] == rest;
      } else {
        if |rest| == 1 {
        } else {
          assert ([[s[0]] + rest[0]] + rest[1..])[1..] == rest[1..];
          assert Join(rest, sep) == rest[0] + [sep] + Join(rest[1..], sep);
        }
      }
    }
  }

  /** A separator-free piece followed by the separator splits off as the first part. */
  lemma {:induction false} SplitAfterPiece(p: string, rest: string, sep: char)
    requires sep !in p
    ensures Split(p + [sep] + rest, sep) == [p] + Split(rest, sep)
  {
    if p == [] {
      assert p + [sep] + rest == [sep] + rest;
      assert ([sep] + rest)[1..] == rest;
    } else {
      SplitAfterPiece(p[1..], rest, sep);
      assert (p + [sep] + rest)[1..] == p[1..] + [sep] + rest;
      var tail := Split(p[1..] + [sep] + rest, sep);
      assert tail[0] == p[1..] && tail[1..] == Split(rest, sep);
      assert [p[0]] + p[1..] == p;
    }
  }

  /** A separator-free string is a single piece. */
  lemma {:induction false} SplitWithoutSeparator(p: string, sep: char)
    requires sep !in p
    ensures Split(p, sep) == [p]
  {
    if p != [] {
      SplitWithoutSeparator(p[1..], sep);
      assert [p[0]] + p[1..] == p;
    }
  }

  /** Splitting undoes joining separator-free pieces. */
  lemma {:induction false} SplitJoin(parts: seq<string>, sep: char)
    requires |parts| >= 1
    requires forall k :: 0 <= k < |parts| ==> sep !in parts[k]
    ensures Split(Join(parts, sep), sep) == parts
  {
    if |parts| == 1 {
      SplitWithoutSeparator(parts[0], sep);
    } else {
      SplitJoin(parts[1..], sep);
      SplitAfterPiece(parts[0], Join(parts[1..], sep), sep);
      assert [parts[0]] + parts[1..] == parts;
    }
  }

  /** `Repeat(c, n)` is `c` written `n` times. */
  function Repeat(c: char, n: nat): (r: string)
    ensures |r| == n
  {
    if n == 0 then [] else [c] + Repeat(c, n - 1)
  }

  /** Every character of `Repeat(c, n)` is `c`. */
  lemma {:induction false} RepeatChars(c: char, n: nat)
    ensures forall i :: 0 <= i < n ==> Repeat(c, n)[i] == c
  {
    if n > 0 {
      RepeatChars(c, n - 1);
    }
  }

  /** `s.padStart(width, fill)`: `fill` is prepended up to `width` characters;
      a longer `s` is kept whole, never truncated. */
  function PadStart(s: string, width: nat, fill: char): string {
    if |s| >= width then s else Repeat(fill, width - |s|) + s
  }

  /** The padded string is `width` long (or `s` itself when that is longer),
      ends with `s`, and is `fill` before it. */
  lemma PadStartShape(s: string, width: nat, fill: char)
    ensures var r := PadStart(s, width, fill);
      && |r| == (if |s| >= width then |s| else width)
      && r[|r| - |s|..] == s
      && forall i :: 0 <= i < |r| - |s| ==> r[i] == fill
  {
    var r := PadStart(s, width, fill);
    if |s| < width {
      RepeatChars(fill, width - |s|);
      assert r[|r| - |s|..] == s;
    }
  }

  /** The regular expression `/^[0-9]{10}$/`: exactly ten ASCII digits. */
  predicate IsTenDigits(s: string) {
    |s| == 10 && forall i :: 0 <= i < |s| ==> IsDecimalDigit(s[i])
  }
}

=== FILE: options.dfy ===
/** Failure-carrying wrappers shared by every module of the model.
    `Option.None` also stands for JavaScript's `undefined`/`null` (for a field
    that is absent) and for `NaN` (for a number that failed to parse). */
module Options {

  datatype Option<+T> = None | Some(value: T) {

    /** The wrapped value, or `default` when there is none. */
    function GetOr(default: T): T {
      match this
      case Some(v) => v
      case None => default
    }
  }

  /** A success value or an error value. */
  datatype Result<+T, +E> = Ok(value: T) | Err(error: E)
}

=== FILE: payment_controller.dfy ===
/** The payment controller: an earlier `createOrder` and a `verifyPayment`
    that only checks the signature and stores nothing. */
module PaymentController {

  import opened Options
  import opened BookingModel
  import PaymentRoutes

  /** The body of the controller's `verifyPayment`, with the gateway's own field names. */
  datatype ConfirmRequest = ConfirmRequest(
    razorpayOrderId: Option<string>,
    razorpayPaymentId: Option<string>,
    razorpaySignature: Option<string>)

  /** 200 `{status: "success"}` or 400 `{status: "failed"}`. */
  datatype ConfirmResponse = Confirmed | Rejected

  function StatusCode(r: ConfirmResponse): int {
    if r.Confirmed? then 200 else 400
  }

  /** The controller's order: `amount * 100` in INR, captured automatically, no receipt. */
  function OrderOptions(amount: int): (o: PaymentRoutes.OrderOptions)
    ensures o.amount % 100 == 0 && o.amount / 100 == amount
    ensures o.currency == "INR" && o.receipt.None? && o.paymentCapture == Some(1)
  {
    PaymentRoutes.OrderOptions(amount * 100, "INR", None, Some(1))
  }

  /** `createOrder`: a gateway failure becomes 500 `{message: "Order creation failed"}`. */
  function CreateOrder(amount: int, gateway: PaymentRoutes.OrderOptions -> Option<PaymentRoutes.GatewayOrder>)
    : (r: PaymentRoutes.OrderResponse)
    ensures r.OrderCreated? <==> gateway(OrderOptions(amount)).Some?
    ensures r.OrderCreated? ==> r.order == gateway(OrderOptions(amount)).value
    ensures r.OrderFailed? ==> r == PaymentRoutes.OrderFailed(None, "Order creation failed")
  {
    match gateway(OrderOptions(amount))
    case Some(order) => PaymentRoutes.OrderCreated(order)
    case None => PaymentRoutes.OrderFailed(None, "Order creation failed")
  }

  /** `verifyPayment`: the HMAC of `` `${order}|${payment}` `` against the
      submitted signature. */
  function VerifyPayment(req: ConfirmRequest, secret: string, hmac: (string, string) -> string): (r: ConfirmResponse)
    ensures r.Confirmed? <==>
      req.razorpaySignature == Some(hmac(secret, PaymentRoutes.SignedMessage(req.razorpayOrderId, req.razorpayPaymentId)))
  {
    var expected := hmac(secret, PaymentRoutes.SignedMessage(req.razorpayOrderId, req.razorpayPaymentId));
    if req.razorpaySignature == Some(expected) then Confirmed else Rejected
  }

  /** The controller and the payment router agree on which confirmations are
      genuine: for the same order id, payment id and signature the controller
      confirms exactly when the router gets past its signature check. */
  lemma AgreesWithRouter(req: ConfirmRequest, body: PaymentRoutes.PaymentRequest, ledger: seq<Booking>,
                         secret: string, hmac: (string, string) -> string, now: int)
    requires body.orderId == req.razorpayOrderId
    requires body.paymentId == req.razorpayPaymentId
    requires body.signature == req.razorpaySignature
    ensures VerifyPayment(req, secret, hmac).Confirmed? <==>
      !PaymentRoutes.VerifyPayment(ledger, body, secret, hmac, now).Failed?
    ensures StatusCode(VerifyPayment(req, secret, hmac)) == 400 <==>
      PaymentRoutes.StatusCode(PaymentRoutes.VerifyPayment(ledger, body, secret, hmac, now)) == 400
  {
  }
}

=== FILE: payment_routes.dfy ===
/** The payment router: `POST /create-order` and `POST /verify-payment`
    (signature check, then serial, then insert). HMAC-SHA256 is the
    uninterpreted parameter `hmac(secret, message)`, the payment gateway is
    the parameter `gateway`, and `Date.now()` is the parameter `now`. */
module PaymentRoutes {

  import opened Options
  import opened JsText
  import opened JsNumber
  import opened BookingModel
  import opened Serial

  /** The body of `POST /verify-payment`; any field may be missing. */
  datatype PaymentRequest = PaymentRequest(
    orderId: Option<string>,
    paymentId: Option<string>,
    signature: Option<string>,
    fullName: Option<string>,
    email: Option<string>,
    phone: Option<string>,
    selectedTicketType: Option<string>,
    quantity: Option<int>,
    totalAmount: Option<int>)

  /** The three answers of `verify-payment`: 400 `{status: "failed"}`,
      500 `{status: "error"}`, or `{status: "success", booking}` together with
      the ledger that now holds the booking. */
  datatype VerifyOutcome = Failed | Error | Success(booking: Booking, ledger: seq<Booking>)

  function StatusCode(r: VerifyOutcome): int {
    match r
    case Failed => 400
    case Error => 500
    case Success(_, _) => 200
  }

  /** A value as JavaScript's `+` renders it: a missing one prints `undefined`. */
  function Str(v: Option<string>): string {
    match v
    case None => "undefined"
    case Some(s) => s
  }

  /** `order_id + "|" + payment_id`, the message the gateway signs. */
  function SignedMessage(orderId: Option<string>, paymentId: Option<string>): string {
    Str(orderId) + "|" + Str(paymentId)
  }

  /** The submitted signature equals the HMAC of the signed message. */
  predicate SignatureMatches(req: PaymentRequest, secret: string, hmac: (string, string) -> string) {
    req.signature == Some(hmac(secret, SignedMessage(req.orderId, req.paymentId)))
  }

  /** The document `verify-payment` hands to `Booking.create`. */
  function DraftFor(req: PaymentRequest, serial: string): Draft {
    Draft(req.fullName, req.email, req.phone, req.selectedTicketType,
          req.quantity, req.totalAmount, req.paymentId, Some(serial), None)
  }

  /** `POST /verify-payment`. A missing ticket type is answered with an error
      directly: the insert that would follow is refused by the `required`
      validator whatever serial was computed. */
  function VerifyPayment(
    ledger: seq<Booking>, req: PaymentRequest,
    secret: string, hmac: (string, string) -> string, now: int): (r: VerifyOutcome)
    ensures r.Failed? <==> !SignatureMatches(req, secret, hmac)
    ensures r.Success? ==> r.ledger == ledger + [r.booking]
    ensures r.Success? && LedgerInvariant(ledger) ==> LedgerInvariant(r.ledger)
  {
    if !SignatureMatches(req, secret, hmac) then Failed
    else
      match req.selectedTicketType
      case None => Error
      case Some(t) =>
        match Create(ledger, DraftFor(req, GenerateSerial(ledger, t)), now)
        case Err(_) => Error
        case Ok(b) => Success(b, ledger + [b])
  }

  /** The request fields every `required` validator accepts. */
  predicate RequestComplete(req: PaymentRequest) {
    && req.fullName.Some? && !AllSpace(req.fullName.value)
    && req.email.Some? && !AllSpace(req.email.value)
    && Given(req.phone)
    && Given(req.selectedTicketType)
    && req.quantity.Some?
    && req.totalAmount.Some?
    && Given(req.paymentId)
  }

  /** A booking is created exactly when the signature matches, the request is
      complete, and neither its payment id nor its new serial is taken. */
  lemma SuccessIff(ledger: seq<Booking>, req: PaymentRequest,
                   secret: string, hmac: (string, string) -> string, now: int)
    ensures VerifyPayment(ledger, req, secret, hmac, now).Success? <==>
      && SignatureMatches(req, secret, hmac)
      && RequestComplete(req)
      && !HasPaymentId(ledger, req.paymentId.value)
      && !HasSerial(ledger, GenerateSerial(ledger, req.selectedTicketType.value))
  {
  }

  /** What a success records: the payment id and ticket type of the request,
      the serial `generateSerial` issued, the contact fields as the schema
      normalises them, the quantity and amount as sent, and the current time. */
  lemma SuccessRecordsRequest(ledger: seq<Booking>, req: PaymentRequest,
                              secret: string, hmac: (string, string) -> string, now: int)
    requires VerifyPayment(ledger, req, secret, hmac, now).Success?
    ensures var b := VerifyPayment(ledger, req, secret, hmac, now).booking;
      && b.paymentId == req.paymentId.value
      && b.ticketType == req.selectedTicketType.value
      && b.serialNumber == GenerateSerial(ledger, req.selectedTicketType.value)
      && b.fullName == Trim(req.fullName.value)
      && b.email == ToLower(Trim(req.email.value))
      && b.phone == req.phone.value
      && b.quantity == req.quantity.value
      && b.totalAmount == req.totalAmount.value
      && b.timestamp == now
  {
  }

  /** The quantity, total and tier of a booked request, read back from its booking. */
  lemma BookedAmounts(ledger: seq<Booking>, req: PaymentRequest,
                      secret: string, hmac: (string, string) -> string, now: int, b: Booking)
    requires VerifyPayment(ledger, req, secret, hmac, now) == Success(b, ledger + [b])
    ensures req.quantity == Some(b.quantity) && req.totalAmount == Some(b.totalAmount)
    ensures req.selectedTicketType == Some(b.ticketType)
  {
    SuccessIff(ledger, req, secret, hmac, now);
    SuccessRecordsRequest(ledger, req, secret, hmac, now);
  }

  /** A payment id already in the ledger is never booked again: a retried
      confirmation gets an error and the ledger keeps one booking for it. */
  lemma RetryIsRejected(ledger: seq<Booking>, req: PaymentRequest,
                        secret: string, hmac: (string, string) -> string, now: int)
    requires req.paymentId.Some? && HasPaymentId(ledger, req.paymentId.value)
    ensures !VerifyPayment(ledger, req, secret, hmac, now).Success?
  {
  }

  /** Submitting the same confirmation twice creates at most one booking. */
  lemma ReplayCreatesOneBooking(ledger: seq<Booking>, req: PaymentRequest,
                                secret: string, hmac: (string, string) -> string, now1: int, now2: int)
    requires VerifyPayment(ledger, req, secret, hmac, now1).Success?
    ensures var first := VerifyPayment(ledger, req, secret, hmac, now1);
      VerifyPayment(first.ledger, req, secret, hmac, now2) == Error
  {
    var first := VerifyPayment(ledger, req, secret, hmac, now1);
    assert first.ledger[|ledger|] == first.booking;
    assert HasPaymentId(first.ledger, req.paymentId.value);
    RetryIsRejected(first.ledger, req, secret, hmac, now2);
  }

  /** A correctly signed, complete request whose payment id and next serial
      are both unused is booked under that serial, stamped now. */
  lemma AcceptedRequest(ledger: seq<Booking>, req: PaymentRequest,
                        secret: string, hmac: (string, string) -> string, now: int)
    requires SignatureMatches(req, secret, hmac) && RequestComplete(req)
    requires !HasPaymentId(ledger, req.paymentId.value)
    requires !HasSerial(ledger, GenerateSerial(ledger, req.selectedTicketType.value))
    ensures var r := VerifyPayment(ledger, req, secret, hmac, now);
      && r.Success?
      && r.ledger == ledger + [r.booking]
      && r.booking.ticketType == req.selectedTicketType.value
      && r.booking.serialNumber == GenerateSerial(ledger, req.selectedTicketType.value)
      && r.booking.timestamp == now
  {
    SuccessIff(ledger, req, secret, hmac, now);
    SuccessRecordsRequest(ledger, req, secret, hmac, now);
  }

  /** The central guarantee of the serial scheme. On a ledger whose serials
      were issued tier by tier, a correctly signed, complete day-pass or
      season-pass request with an unused payment id, handled no earlier than
      the last booking, is booked; its serial is its tier's count plus one;
      and the grown ledger is again issued and keeps both keys unique. */
  lemma IssuedLedgerAcceptsBooking(ledger: seq<Booking>, req: PaymentRequest, t: string,
                                   secret: string, hmac: (string, string) -> string, now: int)
    requires LedgerInvariant(ledger) && Issued(ledger)
    requires forall i :: 0 <= i < |ledger| ==> ledger[i].timestamp <= now
    requires SignatureMatches(req, secret, hmac)
    requires RequestComplete(req)
    requires req.selectedTicketType == Some(t) && (t == DayPass || t == SeasonPass)
    requires !HasPaymentId(ledger, req.paymentId.value)
    ensures var r := VerifyPayment(ledger, req, secret, hmac, now);
      && r.Success?
      && r.booking.serialNumber == FormatSerial(Prefix(t), Some(CountOfType(ledger, t) + 1))
      && LedgerInvariant(r.ledger)
      && Issued(r.ledger)
  {
    IssuedNext(ledger, t, now);
    AcceptedRequest(ledger, req, secret, hmac, now);
  }

  /** What an issued ledger promises the next booking of a tier: its serial
      is the tier's count plus one, is unused, and, stamped no earlier than
      the ledger, keeps the ledger issued. */
  lemma IssuedNext(ledger: seq<Booking>, t: string, now: int)
    requires Issued(ledger)
    requires t == DayPass || t == SeasonPass
    requires forall i :: 0 <= i < |ledger| ==> ledger[i].timestamp <= now
    ensures GenerateSerial(ledger, t) == FormatSerial(Prefix(t), Some(CountOfType(ledger, t) + 1))
    ensures !HasSerial(ledger, GenerateSerial(ledger, t))
    ensures forall b: Booking | b.ticketType == t && b.timestamp == now && b.serialNumber == GenerateSerial(ledger, t)
      :: Issued(ledger + [b])
  {
    IssuedNextSerial(ledger, t);
    IssuedSerialIsFresh(ledger, t);
    forall b: Booking | b.ticketType == t && b.timestamp == now && b.serialNumber == GenerateSerial(ledger, t)
      ensures Issued(ledger + [b])
    {
      IssuedAppend(ledger, b);
    }
  }

  /** One request against the ledger: the grown ledger on success, the same
      ledger otherwise. */
  function Step(ledger: seq<Booking>, req: PaymentRequest,
                secret: string, hmac: (string, string) -> string, now: int): seq<Booking>
  {
    var r := VerifyPayment(ledger, req, secret, hmac, now);
    if r.Success? then r.ledger else ledger
  }

  /** Handling requests one after another, each with its own clock reading. */
  function Run(ledger: seq<Booking>, reqs: seq<(PaymentRequest, int)>,
               secret: string, hmac: (string, string) -> string): seq<Booking>
    decreases |reqs|
  {
    if reqs == [] then ledger
    else Run(Step(ledger, reqs[0].0, secret, hmac, reqs[0].1), reqs[1..], secret, hmac)
  }

  predicate IsTierRequest(req: PaymentRequest) {
    req.selectedTicketType == Some(DayPass) || req.selectedTicketType == Some(SeasonPass)
  }

  /** Every request asks for one of the two tiers. */
  predicate TierRequests(reqs: seq<(PaymentRequest, int)>) {
    forall k :: 0 <= k < |reqs| ==> IsTierRequest(reqs[k].0)
  }

  /** The clock never runs backwards: the requests come in time order and
      after every booking already in the ledger. */
  predicate InTimeOrder(ledger: seq<Booking>, reqs: seq<(PaymentRequest, int)>) {
    && (forall k, m :: 0 <= k < m < |reqs| ==> reqs[k].1 <= reqs[m].1)
    && (forall i, k :: 0 <= i < |ledger| && 0 <= k < |reqs| ==> ledger[i].timestamp <= reqs[k].1)
  }

  /** One step keeps the ledger invariant. */
  lemma StepKeepsInvariant(ledger: seq<Booking>, req: PaymentRequest,
                           secret: string, hmac: (string, string) -> string, now: int)
    requires LedgerInvariant(ledger)
    ensures LedgerInvariant(Step(ledger, req, secret, hmac, now))
  {
  }

  /** One step keeps an issued ledger issued when the request is for a tier
      and the clock has not run backwards. */
  lemma StepKeepsIssued(ledger: seq<Booking>, req: PaymentRequest, t: string,
                        secret: string, hmac: (string, string) -> string, now: int)
    requires Issued(ledger)
    requires req.selectedTicketType == Some(t) && (t == DayPass || t == SeasonPass)
    requires forall i :: 0 <= i < |ledger| ==> ledger[i].timestamp <= now
    ensures Issued(Step(ledger, req, secret, hmac, now))
    ensures forall i :: 0 <= i < |Step(ledger, req, secret, hmac, now)| ==> Step(ledger, req, secret, hmac, now)[i].timestamp <= now
  {
    var r := VerifyPayment(ledger, req, secret, hmac, now);
    if r.Success? {
      var b := r.booking;
      assert r == Success(b, ledger + [b]);
      BookedTierAndTime(ledger, req, t, secret, hmac, now, b);
      IssuedNext(ledger, t, now);
      assert Step(ledger, req, secret, hmac, now) == ledger + [b];
    }
  }

  /** The tier, serial and time of a booked request, read back from its booking. */
  lemma BookedTierAndTime(ledger: seq<Booking>, req: PaymentRequest, t: string,
                          secret: string, hmac: (string, string) -> string, now: int, b: Booking)
    requires req.selectedTicketType == Some(t)
    requires VerifyPayment(ledger, req, secret, hmac, now) == Success(b, ledger + [b])
    ensures b.ticketType == t && b.timestamp == now && b.serialNumber == GenerateSerial(ledger, t)
  {
    SuccessRecordsRequest(ledger, req, secret, hmac, now);
  }

  /** Any run of requests keeps payment ids and serials unique, and a run of
      day-pass and season-pass requests in time order keeps the serials
      issued tier by tier. */
  lemma {:induction false} RunKeepsInvariants(ledger: seq<Booking>, reqs: seq<(PaymentRequest, int)>,
                                              secret: string, hmac: (string, string) -> string)
    requires LedgerInvariant(ledger)
    ensures LedgerInvariant(Run(ledger, reqs, secret, hmac))
    ensures Issued(ledger) && TierRequests(reqs) && InTimeOrder(ledger, reqs) ==> Issued(Run(ledger, reqs, secret, hmac))
    decreases |reqs|
  {
    if reqs != [] {
      var req := reqs[0].0;
      var now := reqs[0].1;
      var t := if req.selectedTicketType == Some(SeasonPass) then SeasonPass else DayPass;
      StepKeepsInvariant(ledger, req, secret, hmac, now);
      var next := Step(ledger, req, secret, hmac, now);
      if Issued(ledger) && TierRequests(reqs) && InTimeOrder(ledger, reqs) {
        assert IsTierRequest(reqs[0].0);
        StepKeepsIssued(ledger, req, t, secret, hmac, now);
        assert TierRequests(reqs[1..]) by {
          forall k | 0 <= k < |reqs| - 1
            ensures IsTierRequest(reqs[1..][k].0)
          {
            assert IsTierRequest(reqs[k + 1].0);
          }
        }
        assert InTimeOrder(next, reqs[1..]) by {
          forall i, k | 0 <= i < |next| && 0 <= k < |reqs| - 1
            ensures next[i].timestamp <= reqs[1..][k].1
          {
            assert reqs[0].1 <= reqs[k + 1].1;
          }
        }
      }
      RunKeepsInvariants(next, reqs[1..], secret, hmac);
    }
  }

  /** Any ticket type is booked first as number one: on an empty ledger a
      correctly signed, complete request gets `DP-0001`, or `SP-0001` for a
      season pass. */
  lemma FirstBooking(req: PaymentRequest, t: string,
                     secret: string, hmac: (string, string) -> string, now: int)
    requires SignatureMatches(req, secret, hmac) && RequestComplete(req)
    requires req.selectedTicketType == Some(t)
    ensures var r := VerifyPayment([], req, secret, hmac, now);
      && r.Success?
      && r.ledger == [r.booking]
      && r.booking.ticketType == t
      && r.booking.serialNumber == if t == SeasonPass then "SP-0001" else "DP-0001"
  {
    FirstSerialOfType([], t);
    AcceptedRequest([], req, secret, hmac, now);
  }

  /** A tier whose first serial is already held by a booking of another
      type can never be booked: every request for it is refused. */
  lemma TakenFirstSerialBlocksTier(ledger: seq<Booking>, req: PaymentRequest, t: string,
                                   secret: string, hmac: (string, string) -> string, now: int)
    requires SignatureMatches(req, secret, hmac)
    requires req.selectedTicketType == Some(t)
    requires forall i :: 0 <= i < |ledger| ==> ledger[i].ticketType != t
    requires HasSerial(ledger, if t == SeasonPass then "SP-0001" else "DP-0001")
    ensures VerifyPayment(ledger, req, secret, hmac, now) == Error
  {
    FirstSerialOfType(ledger, t);
    SuccessIff(ledger, req, secret, hmac, now);
  }

  /** As written, a type other than the two tiers takes the `DP` prefix but
      counts only bookings of its own type. Booked first on an empty ledger,
      it takes `DP-0001`; every correctly signed day-pass request after it
      then computes `DP-0001` again and is answered with an error. */
  lemma ForeignTypeBlocksDayPass(req1: PaymentRequest, foreign: string, req2: PaymentRequest,
                                 secret: string, hmac: (string, string) -> string, now1: int, now2: int)
    requires foreign != DayPass && foreign != SeasonPass
    requires SignatureMatches(req1, secret, hmac) && RequestComplete(req1)
    requires req1.selectedTicketType == Some(foreign)
    requires SignatureMatches(req2, secret, hmac)
    requires req2.selectedTicketType == Some(DayPass)
    ensures var first := VerifyPayment([], req1, secret, hmac, now1);
      && first.Success?
      && first.booking.serialNumber == "DP-0001"
      && VerifyPayment(first.ledger, req2, secret, hmac, now2) == Error
  {
    FirstBooking(req1, foreign, secret, hmac, now1);
    var first := VerifyPayment([], req1, secret, hmac, now1);
    assert first.ledger[0] == first.booking;
    TakenFirstSerialBlocksTier(first.ledger, req2, DayPass, secret, hmac, now2);
  }

  /** The order `create-order` asks the gateway for. */
  datatype OrderOptions = OrderOptions(
    amount: int, currency: string, receipt: Option<string>, paymentCapture: Option<int>)

  /** The gateway's order, passed through to the client unchanged. */
  datatype GatewayOrder = GatewayOrder(id: string, amount: int, currency: string)

  /** `res.json(order)`, or 500 with the error body. */
  datatype OrderResponse =
    | OrderCreated(order: GatewayOrder)
    | OrderFailed(status: Option<string>, message: string)

  /** `amount * 100` in INR with a `receipt_<Date.now()>` receipt. */
  function RouteOrderOptions(amount: int, now: nat): (o: OrderOptions)
    ensures o.amount % 100 == 0 && o.amount / 100 == amount
    ensures o.currency == "INR" && o.paymentCapture.None?
  {
    OrderOptions(amount * 100, "INR", Some("receipt_" + DecimalText(now)), None)
  }

  /** `POST /create-order`: the rupee amount becomes paise, and a gateway
      failure becomes 500 `{status: "error", message: "Order creation failed"}`. */
  function CreateOrder(amount: int, now: nat, gateway: OrderOptions -> Option<GatewayOrder>): (r: OrderResponse)
    ensures r.OrderCreated? <==> gateway(RouteOrderOptions(amount, now)).Some?
    ensures r.OrderCreated? ==> r.order == gateway(RouteOrderOptions(amount, now)).value
    ensures r.OrderFailed? ==> r == OrderFailed(Some("error"), "Order creation failed")
  {
    match gateway(RouteOrderOptions(amount, now))
    case Some(order) => OrderCreated(order)
    case None => OrderFailed(Some("error"), "Order creation failed")
  }
}

=== FILE: price_client.dfy ===
/** The client's `fetchPrices`: the server's pair when the response is OK and
    both prices are numbers, the default pricing otherwise. */
module PriceClient {

  import opened Options
  import opened PricingModel
  import PublicRoutes

  /** One JSON value as far as `typeof v === 'number'` can tell: a number or
      anything else (a string, `null`, a missing field). */
  datatype JsonField = Number(n: int) | NotNumber

  /** The parsed body of a response: `None` for `null` or a non-object. */
  datatype PricesJson = PricesJson(dayPass: JsonField, seasonPass: JsonField)

  /** What the fetch produced: it threw (network failure, unparseable body)
      or a response arrived with its `ok` flag and parsed body. */
  datatype Fetched = Threw | Responded(ok: bool, body: Option<PricesJson>)

  predicate Usable(f: Fetched) {
    f.Responded? && f.ok && f.body.Some? && f.body.value.dayPass.Number? && f.body.value.seasonPass.Number?
  }

  function FetchPrices(f: Fetched): (r: Pricing)
    ensures Usable(f) ==> r == Pricing(f.body.value.dayPass.n, f.body.value.seasonPass.n)
    ensures !Usable(f) ==> r == DefaultPricing
  {
    match f
    case Responded(true, Some(PricesJson(Number(d), Number(s)))) => Pricing(d, s)
    case _ => DefaultPricing
  }

  /** The JSON the public router sends for a pricing. */
  function Encode(p: Pricing): PricesJson {
    PricesJson(Number(p.dayPass), Number(p.seasonPass))
  }

  /** The client receives exactly the pair the server served, and so never a
      zero price, whatever the store held or whether the read failed. */
  lemma ClientSeesServedPrices(read: PublicRoutes.StoreRead)
    ensures var served := PublicRoutes.GetPrices(read);
      FetchPrices(Responded(served.status == 200, Some(Encode(served.body)))) == served.body
    ensures var shown := FetchPrices(Responded(true, Some(Encode(PublicRoutes.GetPrices(read).body))));
      shown.dayPass != 0 && shown.seasonPass != 0
  {
  }

  /** A failed fetch and a non-numeric answer both fall back to the prices the
      server itself would serve with nothing stored. */
  lemma FallbackMatchesServerDefault(f: Fetched)
    requires !Usable(f)
    ensures FetchPrices(f) == PublicRoutes.GetPrices(PublicRoutes.NoRecord).body
  {
  }
}

=== FILE: pricing.dfy ===
/** The `Pricing` document: one day-pass and one season-pass price, both
    required numbers, defaulting to 199 and 699 rupees. */
module PricingModel {

  import opened Options

  const DefaultDayPass := 199
  const DefaultSeasonPass := 699

  datatype Pricing = Pricing(dayPass: int, seasonPass: int)

  const DefaultPricing := Pricing(DefaultDayPass, DefaultSeasonPass)

  /** What a caller passes for one field when creating the document: nothing
      (the default applies), an explicit `null` (the default does not apply
      and the required check fails), or a number. */
  datatype FieldInput = Absent | Null | Supplied(n: int)

  /** A failed save names the first required path that is missing. */
  datatype PricingError = Required(path: string)

  /** The price one field ends up with, or `None` when it is still missing. */
  function FieldValue(input: FieldInput, default: int): (v: Option<int>)
    ensures v.None? <==> input.Null?
    ensures input.Absent? ==> v == Some(default)
    ensures input.Supplied? ==> v == Some(input.n)
  {
    match input
    case Absent => Some(default)
    case Null => None
    case Supplied(n) => Some(n)
  }

  /** Creating a `Pricing` document: defaults first, then the required checks
      in schema order. */
  function NewPricing(dayPass: FieldInput, seasonPass: FieldInput): (r: Result<Pricing, PricingError>)
    ensures r.Ok? <==> !dayPass.Null? && !seasonPass.Null?
    ensures dayPass.Null? ==> r == Err(Required("dayPass"))
    ensures !dayPass.Null? && seasonPass.Null? ==> r == Err(Required("seasonPass"))
    ensures r.Ok? ==> (Some(r.value.dayPass) == FieldValue(dayPass, DefaultDayPass)
                    && Some(r.value.seasonPass) == FieldValue(seasonPass, DefaultSeasonPass))
  {
    match (FieldValue(dayPass, DefaultDayPass), FieldValue(seasonPass, DefaultSeasonPass))
    case (None, _) => Err(Required("dayPass"))
    case (_, None) => Err(Required("seasonPass"))
    case (Some(d), Some(s)) => Ok(Pricing(d, s))
  }

  /** An empty document is the default pricing, and a document given both
      prices keeps exactly those prices. */
  lemma NewPricingDefaultsAndKeeps(p: Pricing)
    ensures NewPricing(Absent, Absent) == Ok(DefaultPricing)
    ensures NewPricing(Supplied(p.dayPass), Supplied(p.seasonPass)) == Ok(p)
  {
  }
}

=== FILE: public_routes.dfy ===
/** `GET /prices` of the public router: the stored pricing with zero prices
    replaced by the defaults, and the default pricing when nothing is stored or
    the read fails. */
module PublicRoutes {

  import opened PricingModel

  /** The outcome of `Pricing.findOne({})`. */
  datatype StoreRead = StoreFailed | NoRecord | Record(stored: Pricing)

  /** The JSON answer; the status is 200 on every path, the error path included. */
  datatype PriceResponse = PriceResponse(status: int, body: Pricing)

  /** JavaScript's `price || fallback` on a stored number: zero is falsy. */
  function OrFallback(price: int, fallback: int): (r: int)
    ensures price != 0 ==> r == price
    ensures price == 0 ==> r == fallback
  {
    if price != 0 then price else fallback
  }

  function GetPrices(read: StoreRead): (r: PriceResponse)
    ensures r.status == 200
    ensures r.body.dayPass != 0 && r.body.seasonPass != 0
    ensures !read.Record? ==> r.body == DefaultPricing
    ensures read.Record? ==> r.body == Pricing(OrFallback(read.stored.dayPass, DefaultDayPass),
                                                OrFallback(read.stored.seasonPass, DefaultSeasonPass))
  {
    match read
    case StoreFailed => PriceResponse(200, DefaultPricing)
    case NoRecord => PriceResponse(200, DefaultPricing)
    case Record(p) =>
      PriceResponse(200, Pricing(OrFallback(p.dayPass, DefaultDayPass), OrFallback(p.seasonPass, DefaultSeasonPass)))
  }

  /** A stored pricing with no zero price is served unchanged, and serving is
      idempotent: storing what was served and reading again serves the same. */
  lemma ServesStoredPrices(p: Pricing, read: StoreRead)
    ensures p.dayPass != 0 && p.seasonPass != 0 <==> GetPrices(Record(p)).body == p
    ensures GetPrices(Record(GetPrices(read).body)) == GetPrices(read)
  {
  }

  /** Each served price depends on its own stored field only: a zero season
      price does not disturb the day price and vice versa. */
  lemma FieldsAreIndependent(day: int, season1: int, season2: int)
    ensures GetPrices(Record(Pricing(day, season1))).body.dayPass
         == GetPrices(Record(Pricing(day, season2))).body.dayPass
    ensures GetPrices(Record(Pricing(season1, day))).body.seasonPass
         == GetPrices(Record(Pricing(season2, day))).body.seasonPass
  {
  }

  /** The document created with no prices is served as the defaults, exactly
      as when no document exists. */
  lemma DefaultDocumentServesDefaults()
    ensures NewPricing(Absent, Absent).Ok?
    ensures GetPrices(Record(NewPricing(Absent, Absent).value)) == GetPrices(NoRecord)
  {
    NewPricingDefaultsAndKeeps(DefaultPricing);
  }
}

=== FILE: serial.dfy ===
/** Serial-number issuance (`generateSerial`): a tier prefix, a dash, and the
    number of the most recent booking of the same ticket type plus one,
    zero-padded to four digits. */
module Serial {

  import opened Options
  import opened JsText
  import opened JsNumber
  import opened BookingModel

  /** The serial prefix: `SP` for season passes, `DP` for every other type. */
  function Prefix(ticketType: string): string {
    if ticketType == SeasonPass then "SP" else "DP"
  }

  /** Season passes, and only they, are prefixed `SP`; everything else is
      prefixed `DP`; neither prefix contains the dash that separates it from
      the number. */
  lemma PrefixOfType(ticketType: string)
    ensures Prefix(ticketType) == "SP" <==> ticketType == SeasonPass
    ensures Prefix(ticketType) == "DP" <==> ticketType != SeasonPass
    ensures '-' !in Prefix(ticketType)
  {
  }

  /** `${prefix}-${String(n).padStart(4, "0")}`. */
  function FormatSerial(prefix: string, n: Option<int>): string {
    prefix + "-" + PadStart(NumberText(n), 4, '0')
  }

  /** `parseInt(serial.split("-")[1])`; a serial without a dash reads `NaN`. */
  function SerialNumberOf(serial: string): Option<int> {
    match Field(serial, '-', 1)
    case None => None
    case Some(part) => ParseInt(part)
  }

  /** `Booking.findOne({ ticketType }).sort({ timestamp: -1 })`: the position
      of the booking of that type with the greatest timestamp, ties going to
      the later insert. */
  function LatestOfType(ledger: seq<Booking>, ticketType: string): (r: Option<nat>)
    ensures r.None? <==> forall i :: 0 <= i < |ledger| ==> ledger[i].ticketType != ticketType
    ensures r.Some? ==> r.value < |ledger| && ledger[r.value].ticketType == ticketType
    ensures r.Some? ==> forall i :: 0 <= i < |ledger| && ledger[i].ticketType == ticketType ==>
      ledger[i].timestamp <= ledger[r.value].timestamp
    ensures r.Some? ==> forall i :: r.value < i < |ledger| && ledger[i].ticketType == ticketType ==>
      ledger[i].timestamp < ledger[r.value].timestamp
  {
    if ledger == [] then None
    else
      var last := |ledger| - 1;
      var earlier := LatestOfType(ledger[..last], ticketType);
      if ledger[last].ticketType != ticketType then earlier
      else if earlier.Some? && ledger[earlier.value].timestamp > ledger[last].timestamp then earlier
      else Some(last)
  }

  /** `nextNumber`: 1 when there is no earlier booking of the type (or it has
      no serial), otherwise the parsed number plus one; `NaN` stays `NaN`. */
  function NextNumber(ledger: seq<Booking>, ticketType: string): Option<int> {
    match LatestOfType(ledger, ticketType)
    case None => Some(1)
    case Some(i) =>
      if ledger[i].serialNumber == "" then Some(1)
      else
        Successor(SerialNumberOf(ledger[i].serialNumber))
  }

  /** `n + 1` on a number that may be `NaN`. */
  function Successor(n: Option<int>): Option<int> {
    match n
    case None => None
    case Some(k) => Some(k + 1)
  }

  lemma SuccessorOfNumber(n: Option<int>, k: int)
    requires n == Some(k)
    ensures Successor(n) == Some(k + 1)
  {
  }

  /** `generateSerial(ticketType)` against the current ledger. */
  function GenerateSerial(ledger: seq<Booking>, ticketType: string): string {
    FormatSerial(Prefix(ticketType), NextNumber(ledger, ticketType))
  }

  /** A padded non-negative numeral is zeros followed by the numeral, and
      has no dash in it. */
  lemma PaddedNumeral(n: nat)
    ensures var d := DecimalText(n);
      PadStart(NumberText(Some(n)), 4, '0') == Repeat('0', |PadStart(d, 4, '0')| - |d|) + d
    ensures '-' !in PadStart(NumberText(Some(n)), 4, '0')
  {
    var d := DecimalText(n);
    assert NumberText(Some(n)) == d;
    var k := |PadStart(d, 4, '0')| - |d|;
    if |d| >= 4 {
      assert Repeat('0', 0) + d == d;
    }
    var padded := Repeat('0', k) + d;
    RepeatChars('0', k);
    DecimalTextDigits(n);
    forall i | 0 <= i < |padded|
      ensures padded[i] != '-'
    {
      if i >= k {
        assert padded[i] == d[i - k];
      }
    }
  }

  /** The padded number reads back as the number. */
  lemma PaddedReadsBack(n: nat)
    ensures ParseInt(PadStart(NumberText(Some(n)), 4, '0')) == Some(n)
    ensures '-' !in PadStart(NumberText(Some(n)), 4, '0')
  {
    var d := DecimalText(n);
    var k := |PadStart(d, 4, '0')| - |d|;
    var padded := PadStart(NumberText(Some(n)), 4, '0');
    PaddedNumeral(n);
    assert padded == Repeat('0', k) + d;
    ParsePaddedDecimal(k, n);
    assert ParseInt(Repeat('0', k) + d) == Some(n);
  }

  /** A dash-free prefix and a dash-free tail joined by one dash split back
      into the two. */
  lemma FieldsAroundDash(prefix: string, tail: string)
    requires '-' !in prefix && '-' !in tail
    ensures Field(prefix + "-" + tail, '-', 0) == Some(prefix)
    ensures Field(prefix + "-" + tail, '-', 1) == Some(tail)
  {
    SplitAfterPiece(prefix, tail, '-');
    SplitWithoutSeparator(tail, '-');
    assert prefix + "-" + tail == prefix + ['-'] + tail;
  }

  /** Reading the number back out of a formatted serial gives the number it
      was formatted from, for every prefix without a dash and every n >= 0. */
  lemma SerialRoundTrip(prefix: string, n: nat)
    requires '-' !in prefix
    ensures SerialNumberOf(FormatSerial(prefix, Some(n))) == Some(n)
    ensures Field(FormatSerial(prefix, Some(n)), '-', 0) == Some(prefix)
  {
    var padded := PadStart(NumberText(Some(n)), 4, '0');
    PaddedReadsBack(n);
    FieldsAroundDash(prefix, padded);
  }

  /** Distinct (prefix, number) pairs format to distinct serials. */
  lemma FormatSerialInjective(p1: string, n1: nat, p2: string, n2: nat)
    requires '-' !in p1 && '-' !in p2
    requires FormatSerial(p1, Some(n1)) == FormatSerial(p2, Some(n2))
    ensures p1 == p2 && n1 == n2
  {
    SerialRoundTrip(p1, n1);
    SerialRoundTrip(p2, n2);
  }

  /** With no earlier booking of the type, the serial is number one: `DP-0001`
      or `SP-0001`. */
  lemma FirstSerialOfType(ledger: seq<Booking>, ticketType: string)
    requires forall i :: 0 <= i < |ledger| ==> ledger[i].ticketType != ticketType
    ensures GenerateSerial(ledger, ticketType) == if ticketType == SeasonPass then "SP-0001" else "DP-0001"
  {
    assert NumberText(Some(1)) == "1";
    RepeatChars('0', 3);
    assert Repeat('0', 3) == "000";
    assert PadStart("1", 4, '0') == "0001";
    assert "SP" + "-" + "0001" == "SP-0001";
    assert "DP" + "-" + "0001" == "DP-0001";
  }

  /** Otherwise the new number is one more than the number of the most recent
      serial of the type, when that serial was itself well formed. */
  lemma NextAfterLatest(ledger: seq<Booking>, ticketType: string, i: nat, prefix: string, n: nat)
    requires LatestOfType(ledger, ticketType) == Some(i)
    requires '-' !in prefix
    requires ledger[i].serialNumber == FormatSerial(prefix, Some(n))
    ensures NextNumber(ledger, ticketType) == Some(n + 1)
    ensures GenerateSerial(ledger, ticketType) == FormatSerial(Prefix(ticketType), Some(n + 1))
  {
    var serial := ledger[i].serialNumber;
    SerialRoundTrip(prefix, n);
    assert serial[|prefix|] == '-';
    NextOfReadable(ledger, ticketType, i, n);
  }

  /** The next number follows a latest serial whose number reads back. */
  lemma NextOfReadable(ledger: seq<Booking>, ticketType: string, i: nat, n: int)
    requires LatestOfType(ledger, ticketType) == Some(i)
    requires |ledger[i].serialNumber| > 0 && SerialNumberOf(ledger[i].serialNumber) == Some(n)
    ensures NextNumber(ledger, ticketType) == Some(n + 1)
  {
    SuccessorOfNumber(SerialNumberOf(ledger[i].serialNumber), n);
  }

  /** A latest serial without a dash has no number part, which reads `NaN`;
      the next serial of the type is then `DP-0NaN` (or `SP-0NaN`). */
  lemma NaNSerial(ledger: seq<Booking>, ticketType: string, i: nat)
    requires LatestOfType(ledger, ticketType) == Some(i)
    requires ledger[i].serialNumber != "" && '-' !in ledger[i].serialNumber
    ensures NextNumber(ledger, ticketType) == None
    ensures GenerateSerial(ledger, ticketType) == Prefix(ticketType) + "-0NaN"
  {
    SplitWithoutSeparator(ledger[i].serialNumber, '-');
    assert SerialNumberOf(ledger[i].serialNumber) == None;
    assert PadStart("NaN", 4, '0') == "0NaN";
  }

  /** The serials of a ledger were issued tier by tier: every booking is a
      day pass or a season pass, timestamps never decrease along the ledger,
      and the k-th booking of a tier carries that tier's prefix and number k. */
  ghost predicate Issued(ledger: seq<Booking>) {
    && (forall i :: 0 <= i < |ledger| ==> TierAt(ledger, i))
    && (forall i, j :: 0 <= i < j < |ledger| ==> StampedInOrder(ledger, i, j))
    && (forall i :: 0 <= i < |ledger| ==> NumberedAt(ledger, i))
  }

  ghost predicate TierAt(ledger: seq<Booking>, i: int)
    requires 0 <= i < |ledger|
  {
    ledger[i].ticketType == DayPass || ledger[i].ticketType == SeasonPass
  }

  ghost predicate StampedInOrder(ledger: seq<Booking>, i: int, j: int)
    requires 0 <= i < j < |ledger|
  {
    ledger[i].timestamp <= ledger[j].timestamp
  }

  /** The booking at position `i` carries its tier's prefix and its rank
      among the bookings of its type. */
  ghost predicate NumberedAt(ledger: seq<Booking>, i: int)
    requires 0 <= i < |ledger|
  {
    ledger[i].serialNumber
      == FormatSerial(Prefix(ledger[i].ticketType), Some(CountOfType(ledger[..i], ledger[i].ticketType) + 1))
  }

  /** On an issued ledger the next serial of a tier is that tier's count
      plus one. */
  lemma IssuedNextSerial(ledger: seq<Booking>, ticketType: string)
    requires Issued(ledger)
    ensures GenerateSerial(ledger, ticketType)
      == FormatSerial(Prefix(ticketType), Some(CountOfType(ledger, ticketType) + 1))
  {
    match LatestOfType(ledger, ticketType)
    case None =>
      NoneOfType(ledger, ticketType);
    case Some(i) =>
      LatestIsLastOfType(ledger, ticketType, i);
      CountUpToLast(ledger, i, ticketType);
      assert NumberedAt(ledger, i);
      NextFromNumbered(ledger, ticketType, i);
  }

  /** With timestamps in ledger order, the latest booking of a type is the
      last one of that type. */
  lemma LatestIsLastOfType(ledger: seq<Booking>, ticketType: string, i: nat)
    requires forall i, j :: 0 <= i < j < |ledger| ==> StampedInOrder(ledger, i, j)
    requires LatestOfType(ledger, ticketType) == Some(i)
    ensures forall j :: i < j < |ledger| ==> ledger[j].ticketType != ticketType
  {
    forall j | i < j < |ledger|
      ensures ledger[j].ticketType != ticketType
    {
      assert StampedInOrder(ledger, i, j);
    }
  }

  /** The serial after a numbered latest booking carries the next rank. */
  lemma NextFromNumbered(ledger: seq<Booking>, ticketType: string, i: nat)
    requires LatestOfType(ledger, ticketType) == Some(i)
    requires NumberedAt(ledger, i)
    ensures GenerateSerial(ledger, ticketType)
      == FormatSerial(Prefix(ticketType), Some(CountOfType(ledger[..i], ticketType) + 1 + 1))
  {
    var n := CountOfType(ledger[..i], ticketType) + 1;
    assert ledger[i].ticketType == ticketType;
    assert ledger[i].serialNumber == FormatSerial(Prefix(ticketType), Some(n));
    PrefixOfType(ticketType);
    NextAfterLatest(ledger, ticketType, i, Prefix(ticketType), n);
  }

  lemma {:induction false} NoneOfType(ledger: seq<Booking>, ticketType: string)
    requires forall i :: 0 <= i < |ledger| ==> ledger[i].ticketType != ticketType
    ensures CountOfType(ledger, ticketType) == 0
  {
    if ledger != [] {
      NoneOfType(ledger[..|ledger| - 1], ticketType);
    }
  }

  /** Serials built from different (prefix, number) pairs differ. */
  lemma DistinctSerials(p1: string, n1: nat, p2: string, n2: nat)
    requires '-' !in p1 && '-' !in p2
    ensures p1 != p2 || n1 != n2 ==> FormatSerial(p1, Some(n1)) != FormatSerial(p2, Some(n2))
  {
    SerialRoundTrip(p1, n1);
    SerialRoundTrip(p2, n2);
  }

  /** On an issued ledger the next serial of a tier collides with no serial
      already in the ledger. */
  lemma IssuedSerialIsFresh(ledger: seq<Booking>, ticketType: string)
    requires Issued(ledger)
    requires ticketType == DayPass || ticketType == SeasonPass
    ensures !HasSerial(ledger, GenerateSerial(ledger, ticketType))
  {
    IssuedNextSerial(ledger, ticketType);
    NextNumberIsFresh(ledger, ticketType);
  }

  lemma NextNumberIsFresh(ledger: seq<Booking>, ticketType: string)
    requires Issued(ledger)
    requires ticketType == DayPass || ticketType == SeasonPass
    ensures !HasSerial(ledger, FormatSerial(Prefix(ticketType), Some(CountOfType(ledger, ticketType) + 1)))
  {
    var serial := FormatSerial(Prefix(ticketType), Some(CountOfType(ledger, ticketType) + 1));
    forall i | 0 <= i < |ledger|
      ensures ledger[i].serialNumber != serial
    {
      assert NumberedAt(ledger, i) && TierAt(ledger, i);
      if ledger[i].ticketType == ticketType {
        CountBeforeIsSmaller(ledger, i, ticketType);
      }
      NumberedSerialDiffers(ledger, i, ticketType);
    }
  }

  /** A numbered booking's serial differs from the next serial of any tier
      whose next rank is above the booking's own. */
  lemma NumberedSerialDiffers(ledger: seq<Booking>, i: int, ticketType: string)
    requires 0 <= i < |ledger| && NumberedAt(ledger, i) && TierAt(ledger, i)
    requires ticketType == DayPass || ticketType == SeasonPass
    requires ledger[i].ticketType == ticketType ==>
      CountOfType(ledger[..i], ledger[i].ticketType) + 1 < CountOfType(ledger, ticketType) + 1
    ensures ledger[i].serialNumber != FormatSerial(Prefix(ticketType), Some(CountOfType(ledger, ticketType) + 1))
  {
    RankedSerialDiffers(ledger[i].serialNumber, ledger[i].ticketType, CountOfType(ledger[..i], ledger[i].ticketType) + 1,
      ticketType, CountOfType(ledger, ticketType) + 1);
  }

  /** A serial of rank `m` in tier `t` is not the serial of rank `n` in a
      tier `u`, unless the tier and the rank are the same. */
  lemma RankedSerialDiffers(serial: string, t: string, m: nat, u: string, n: nat)
    requires t == DayPass || t == SeasonPass
    requires u == DayPass || u == SeasonPass
    requires t == u ==> m < n
    requires serial == FormatSerial(Prefix(t), Some(m))
    ensures serial != FormatSerial(Prefix(u), Some(n))
  {
    assert Prefix(t) != Prefix(u) || m != n;
    PrefixOfType(t);
    PrefixOfType(u);
    DistinctSerials(Prefix(t), m, Prefix(u), n);
  }

  /** Appending the next serial of a tier, stamped no earlier than the ledger,
      keeps the ledger issued. */
  lemma IssuedAppend(ledger: seq<Booking>, b: Booking)
    requires Issued(ledger)
    requires b.ticketType == DayPass || b.ticketType == SeasonPass
    requires forall i :: 0 <= i < |ledger| ==> ledger[i].timestamp <= b.timestamp
    requires b.serialNumber == GenerateSerial(ledger, b.ticketType)
    ensures Issued(ledger + [b])
  {
    IssuedNextSerial(ledger, b.ticketType);
    AppendNextNumber(ledger, b);
  }

  lemma AppendNextNumber(ledger: seq<Booking>, b: Booking)
    requires Issued(ledger)
    requires b.ticketType == DayPass || b.ticketType == SeasonPass
    requires forall i :: 0 <= i < |ledger| ==> ledger[i].timestamp <= b.timestamp
    requires b.serialNumber == FormatSerial(Prefix(b.ticketType), Some(CountOfType(ledger, b.ticketType) + 1))
    ensures Issued(ledger + [b])
  {
    AppendKeepsNumbering(ledger, b);
    AppendKeepsOrder(ledger, b);
  }

  lemma AppendKeepsNumbering(ledger: seq<Booking>, b: Booking)
    requires forall i :: 0 <= i < |ledger| ==> NumberedAt(ledger, i) && TierAt(ledger, i)
    requires b.ticketType == DayPass || b.ticketType == SeasonPass
    requires b.serialNumber == FormatSerial(Prefix(b.ticketType), Some(CountOfType(ledger, b.ticketType) + 1))
    ensures forall i :: 0 <= i < |ledger| + 1 ==> NumberedAt(ledger + [b], i) && TierAt(ledger + [b], i)
  {
    forall i | 0 <= i < |ledger| + 1
      ensures NumberedAt(ledger + [b], i) && TierAt(ledger + [b], i)
    {
      NumberedAfterAppend(ledger, b, i);
    }
  }

  lemma NumberedAfterAppend(ledger: seq<Booking>, b: Booking, i: int)
    requires 0 <= i <= |ledger|
    requires i < |ledger| ==> NumberedAt(ledger, i) && TierAt(ledger, i)
    requires b.ticketType == DayPass || b.ticketType == SeasonPass
    requires b.serialNumber == FormatSerial(Prefix(b.ticketType), Some(CountOfType(ledger, b.ticketType) + 1))
    ensures NumberedAt(ledger + [b], i) && TierAt(ledger + [b], i)
  {
    var l := ledger + [b];
    assert l[..|ledger|] == ledger;
    if i < |ledger| {
      NumberedInPrefix(ledger, l, i);
    } else {
      assert l[i] == b;
      NumberedBehind(l, i, ledger, b);
    }
  }

  lemma AppendKeepsOrder(ledger: seq<Booking>, b: Booking)
    requires forall i, j :: 0 <= i < j < |ledger| ==> StampedInOrder(ledger, i, j)
    requires forall i :: 0 <= i < |ledger| ==> ledger[i].timestamp <= b.timestamp
    ensures forall i, j :: 0 <= i < j < |ledger| + 1 ==> StampedInOrder(ledger + [b], i, j)
  {
    var l := ledger + [b];
    forall i, j | 0 <= i < j < |l|
      ensures StampedInOrder(l, i, j)
    {
      assert l[i] == ledger[i];
      if j < |ledger| {
        assert l[j] == ledger[j];
        assert StampedInOrder(ledger, i, j);
      } else {
        assert l[j] == b;
      }
    }
  }

  /** Numbering depends only on the bookings up to and including position `i`. */
  lemma NumberedInPrefix(ledger: seq<Booking>, l: seq<Booking>, i: int)
    requires 0 <= i < |ledger| <= |l| && l[..|ledger|] == ledger
    requires NumberedAt(ledger, i) && TierAt(ledger, i)
    ensures NumberedAt(l, i) && TierAt(l, i)
  {
    assert l[i] == ledger[i];
    assert l[..i] == ledger[..i];
  }

  /** A booking numbered from the bookings before it is numbered wherever
      it sits behind exactly those bookings. */
  lemma NumberedBehind(l: seq<Booking>, i: nat, before: seq<Booking>, b: Booking)
    requires i < |l| && l[i] == b && l[..i] == before
    requires b.ticketType == DayPass || b.ticketType == SeasonPass
    requires b.serialNumber == FormatSerial(Prefix(b.ticketType), Some(CountOfType(before, b.ticketType) + 1))
    ensures NumberedAt(l, i) && TierAt(l, i)
  {
  }
}

=== FILE: static_site.dfy ===
/** The static booking page: the order summary, the checks before checkout
    and the amount sent to the gateway, the booking list kept in the
    browser's storage, the admin panel's password check and the FAQ
    accordion. */
module StaticSite {

  import opened Options
  import opened JsText
  import opened JsNumber
  import opened BookingModel
  import PaymentRoutes
  import AdminAuth
  import HomePage

  /** `updatePrice`'s total: the price times the quantity when both are
      truthy, zero otherwise. The price is `parseInt` of the card's price
      attribute, so it may be `NaN`. */
  function SummaryTotal(price: Option<int>, quantityInput: string): (total: int)
    ensures price.None? ==> total == 0
  {
    var quantity := IntOrZero(quantityInput);
    if price.Some? && price.value != 0 && quantity != 0 then price.value * quantity else 0
  }

  /** The guard is only there for `NaN`: for a numeric price the total is
      the plain product, and for a numeral quantity `n` it is price times `n`. */
  lemma SummaryTotalIsProduct(price: int, quantityInput: string)
    ensures SummaryTotal(Some(price), quantityInput) == price * IntOrZero(quantityInput)
  {
  }

  lemma SummaryTotalOfNumeral(price: int, n: nat)
    ensures SummaryTotal(Some(price), DecimalText(n)) == price * n
  {
    IntOrZeroOfNumeral(n);
    SummaryTotalIsProduct(price, DecimalText(n));
  }

  /** The answers of `submitBooking`, in the order it checks them; a
      checkout carries the total (`NaN` when the price is) and the amount in
      paise handed to the gateway. */
  datatype Submission =
    | NoTicketType
    | FieldsMissing
    | BadPhone
    | Checkout(quantity: int, totalAmount: Option<int>, amountPaise: Option<int>)

  /** A number times a possibly-`NaN` number. */
  function Times(v: Option<int>, k: int): (r: Option<int>)
    ensures r.Some? <==> v.Some?
    ensures r.Some? ==> r.value == v.value * k
  {
    match v
    case None => None
    case Some(n) => Some(n * k)
  }

  function SubmitBooking(selectedType: Option<string>, price: Option<int>,
                         fullName: string, email: string, phone: string, quantityInput: string): (r: Submission)
    ensures !Given(selectedType) <==> r == NoTicketType
    ensures r == FieldsMissing <==>
      && Given(selectedType)
      && (fullName == "" || email == "" || phone == ""
          || ParseInt(quantityInput).None? || ParseInt(quantityInput).value == 0)
    ensures r.Checkout? <==>
      && Given(selectedType)
      && fullName != "" && email != "" && phone != ""
      && ParseInt(quantityInput).Some? && ParseInt(quantityInput).value != 0
      && IsTenDigits(phone)
    ensures r == BadPhone ==> phone != "" && !IsTenDigits(phone)
    ensures r.Checkout? ==>
      (&& Some(r.quantity) == ParseInt(quantityInput)
       && r.totalAmount == Times(price, r.quantity)
       && r.amountPaise == Times(r.totalAmount, 100))
  {
    var quantity := ParseInt(quantityInput);
    if !Given(selectedType) then NoTicketType
    else if fullName == "" || email == "" || phone == "" || quantity.None? || quantity.value == 0 then FieldsMissing
    else if !IsTenDigits(phone) then BadPhone
    else
      var total := Times(price, quantity.value);
      Checkout(quantity.value, total, Times(total, 100))
  }

  /** What is charged is what the summary showed, and the gateway amount is
      the one the server's `create-order` computes for that total. */
  lemma CheckoutChargesSummary(selectedType: Option<string>, price: int, fullName: string, email: string,
                               phone: string, quantityInput: string, now: nat)
    requires SubmitBooking(selectedType, Some(price), fullName, email, phone, quantityInput).Checkout?
    ensures var r := SubmitBooking(selectedType, Some(price), fullName, email, phone, quantityInput);
      && r.totalAmount == Some(SummaryTotal(Some(price), quantityInput))
      && r.amountPaise == Some(PaymentRoutes.RouteOrderOptions(r.totalAmount.value, now).amount)
  {
    var r := SubmitBooking(selectedType, Some(price), fullName, email, phone, quantityInput);
    assert IntOrZero(quantityInput) == r.quantity;
    SummaryTotalIsProduct(price, quantityInput);
  }

  /** One entry of the browser's booking list. */
  datatype LocalBooking = LocalBooking(
    fullName: string, email: string, phone: string, ticketType: string,
    quantity: int, totalAmount: Option<int>, paymentId: Option<string>, timestamp: string)

  /** `saveBooking`: the stored list (an absent one reads as empty) with the
      new entry pushed onto its end. */
  function SaveBooking(stored: Option<seq<LocalBooking>>, entry: LocalBooking): (r: seq<LocalBooking>)
    ensures |r| == |stored.GetOr([])| + 1
    ensures r[..|stored.GetOr([])|] == stored.GetOr([])
    ensures r[|stored.GetOr([])|] == entry
  {
    stored.GetOr([]) + [entry]
  }

  /** Saving entries one after another. */
  function SaveAll(stored: Option<seq<LocalBooking>>, entries: seq<LocalBooking>): seq<LocalBooking>
    decreases |entries|
  {
    if entries == [] then stored.GetOr([])
    else SaveAll(Some(SaveBooking(stored, entries[0])), entries[1..])
  }

  /** The list only ever grows at the end: after any number of payments it is
      the old list followed by the new entries in payment order. */
  lemma {:induction false} SaveAllAppends(stored: seq<LocalBooking>, entries: seq<LocalBooking>)
    ensures SaveAll(Some(stored), entries) == stored + entries
    decreases |entries|
  {
    if entries != [] {
      SaveAllAppends(stored + [entries[0]], entries[1..]);
      assert stored + [entries[0]] + entries[1..] == stored + entries;
    }
  }

  /** `verifyAdminLogin`: the panel opens for one fixed id and password. */
  function VerifyAdminLogin(adminId: string, adminPassword: string): bool {
    adminId == "ADMIN" && adminPassword == "12345"
  }

  /** The static page's credentials and the server's admin login are
      disjoint: neither accepts the other's pair. */
  lemma AdminCredentialsDisjoint(sign: AdminAuth.Claims -> string)
    ensures VerifyAdminLogin("ADMIN", "12345")
    ensures !VerifyAdminLogin(AdminAuth.AdminUser, AdminAuth.AdminPass)
    ensures AdminAuth.Login(Some("ADMIN"), Some("12345"), sign).LoginFailed?
  {
  }

  /** At most one FAQ item carries the `active` class. */
  predicate AtMostOneActive(items: seq<bool>) {
    forall i, j :: 0 <= i < |items| && 0 <= j < |items| && items[i] && items[j] ==> i == j
  }

  /** `toggleFaq`: every item is closed, then the clicked one opens unless it
      was open. */
  function ToggleFaq(items: seq<bool>, k: nat): (r: seq<bool>)
    requires k < |items|
    ensures |r| == |items| && AtMostOneActive(r)
    ensures r[k] <==> !items[k]
    ensures forall j :: 0 <= j < |r| && j != k ==> !r[j]
  {
    seq(|items|, j requires 0 <= j < |items| => j == k && !items[k])
  }

  /** The open item of the accordion as a row of `active` flags. */
  function Flags(open: Option<nat>, count: nat): (r: seq<bool>)
    ensures |r| == count && AtMostOneActive(r)
  {
    seq(count, i requires 0 <= i < count => open == Some(i))
  }

  /** The static page's accordion and the booking page's agree: toggling
      the flags is toggling the open index. */
  lemma ToggleFaqAgreesWithHomePage(open: Option<nat>, k: nat, count: nat)
    requires k < count
    requires open.Some? ==> open.value < count
    ensures ToggleFaq(Flags(open, count), k) == Flags(HomePage.ToggleFaq(open, k), count)
  {
  }

  /** Every row of flags with at most one open item is the picture of some
      open index, so the agreement covers every reachable accordion. */
  lemma FlagsCoverAccordion(items: seq<bool>)
    requires AtMostOneActive(items)
    ensures exists open: Option<nat> :: (open.Some? ==> open.value < |items|) && Flags(open, |items|) == items
  {
    if k :| 0 <= k < |items| && items[k] {
      assert Flags(Some(k), |items|) == items;
    } else {
      assert Flags(None, |items|) == items;
    }
  }
}
